=== FILE: README.md ===
# Snake variants and Batalha Naval: a verified model of the game rules

This repository holds four Snake games and one Battleship game written
for React Native. The Dafny modules here model their game rules as pure
functions over immutable records and prove what those rules promise.

The Snake games all use one integer grid (module `Geometry`). It defines
cells, the four headings, their opposites, one step along a heading, and
the body update "prepend the new head, drop the tail unless growing".

- **snake-game**:
  - `PureEngine` models the pure engine in `src/logic/gameEngine.ts`.
  - `SnakeComponent` models the self-contained game loop of `src/components/SnakeGame.tsx`. That loop has a one-slot request buffer, a linear fallback for food, and an interval that shrinks with every meal.
- **SnakeGame** (the two-snake duel):
  - `Snakes`, `Collision`, `SnakeMovement` and `DuelEngine` model `src/game`.
  - `RivalAI` models the greedy rival.
  - `FoodGenerator` models the bounded food sampler.
  - `DirectionBuffer` models the buffered-direction hook.
  - `HookGame` models the `useGameLogic` reducer, which is shared with SnakeGameFinal.
- **SnakeGameFinal**: `GameHelpers` models `src/utils/gameHelpers.ts`; its reducer is `HookGame` with a speed floor of 100.
- **JogoCobra**:
  - `Cobra` models the 12 x 12 board and `gerarComida`.
  - `CobraHook` models the `useSnakeMovement` hook.
  - `CobraGame` models the `Game.tsx` component.
  - `CobraEnemy` models the chasing enemy of mode "DIFICIL".
- **batalha-naval**:
  - `NavalBoard` models the board helpers.
  - `ShipPlacement` models `canPlaceShip`, `placeShip` and `placeFleetRandomly`.
  - `Shots` models `shoot` and `areAllShipsSunk`.

`Math.random` becomes an explicit sequence of draws. Each draw lies in the
range the source's expression can produce, and every such sequence is a
possible run. An operation that draws new food after a meal takes the
drawn cell as a parameter. Lemmas then connect that parameter back to the
sampler. The invariants that every operation keeps are stated as `Valid`
predicates:

- the snake is non-empty, connected, free of repeats and on the board;
- the food is on the board (PureEngine; the other variants prove each newly drawn food on the board and, except the two-snake game's `generateFood` (see Findings), off the snake);
- a buffered request never reverses the heading;
- the marked cells of a Battleship board are exactly its ships' cells, all on the board, and no ship touches another.

## Model

| member | source | states |
|---|---|---|
| Geometry.Delta | JogoCobra/src/utils/constants.ts:11-16 | every heading vector is a unit step along one axis |
| Geometry.Opposite | SnakeGame/src/game/utils.ts:4-6 | the opposite heading is never the heading itself |
| Geometry.OppositeInvolution | SnakeGameFinal/src/utils/gameHelpers.ts:41-49 | taking the opposite twice gives the heading back |
| Geometry.OppositeNegates | JogoCobra/src/utils/constants.ts:11-16 | the vector of the opposite heading is the negated vector |
| Geometry.OppositeSymmetric | snake-game/src/components/SnakeGame.tsx:130-136 | b is the opposite of a exactly when a is the opposite of b |
| Geometry.Move | SnakeGame/src/game/utils.ts:8-14 | the per-heading next-cell table equals adding the heading's unit vector, and the result is an orthogonal neighbour |
| Geometry.MoveThenBack | SnakeGameFinal/src/utils/gameHelpers.ts:16-25 | a step followed by a step the opposite way returns to the start |
| Geometry.MoveInjective | snake-game/src/components/SnakeGame.tsx:117-123 | from one cell, different headings reach different cells |
| Geometry.SamePos | SnakeGame/src/game/utils.ts:16-18 | the coordinate comparison holds exactly when the cells are equal |
| Geometry.Advance | SnakeGame/src/game/snakeMovement.ts:4-14 | the new head comes first, every old segment moves back one index, and the length grows by one only when growing |
| Geometry.AdvanceKeepsWellFormed | SnakeGameFinal/src/hooks/useGameLogic.ts:66-73 | a head adjacent to the old head and off the whole old body keeps the body connected and free of repeats |
| PosText.NatToString | SnakeGame/src/game/utils.ts:20-22 | the decimal text is non-empty digits, and a single digit exactly below ten |
| PosText.IntToString | SnakeGame/src/game/utils.ts:20-22 | the integer text has no comma and starts with '-' exactly for negatives |
| PosText.NatToStringInjective | SnakeGame/src/game/utils.ts:20-22 | different naturals have different decimal texts |
| PosText.IntToStringInjective | SnakeGame/src/game/utils.ts:20-22 | different integers have different texts |
| PosText.CommaSplit | SnakeGame/src/game/utils.ts:20-22 | a key `x,y` splits at its comma in exactly one way |
| PosText.PositionToString | SnakeGame/src/game/utils.ts:20-22 | the key has exactly one comma, right after the text of x, and starts with '-' exactly when x is negative |
| PosText.PositionToStringInjective | SnakeGame/src/game/utils.ts:20-22 | two cells share a key exactly when they are the same cell |
| PureEngine.InitGame | snake-game/src/logic/gameEngine.ts:10-20 | a one-cell snake at (2,2) heading right, score 0, the stored best kept, and the food as drawn |
| PureEngine.InitFoodMayHitSnake | snake-game/src/logic/gameEngine.ts:3-20 | (2,2) is a possible draw of randomPosition, so the first food can lie under the snake |
| PureEngine.NextDirection | snake-game/src/logic/gameEngine.ts:22-33 | a reversal keeps the old heading, any other request is taken, and the result never reverses |
| PureEngine.UpdateGame | snake-game/src/logic/gameEngine.ts:35-82 | game over is absorbing; a wall or body hit only sets the flag; otherwise the head steps, the body follows, eating grows, scores and redraws, and best is the maximum of score and best |
| PureEngine.InitGameValid | snake-game/src/logic/gameEngine.ts:3-20 | with a randomPosition draw as the food, the initial state satisfies the invariant on boards larger than 2 |
| PureEngine.UpdateGameKeepsValid | snake-game/src/logic/gameEngine.ts:35-82 | every tick whose new food is a randomPosition draw keeps a well-formed snake on the board with food on the board |
| PureEngine.WallEndsShortSnake | snake-game/src/logic/gameEngine.ts:48-55 | a one-cell snake facing a wall ends the game in one tick |
| SnakeComponent.RandomFoodPosition | snake-game/src/components/SnakeGame.tsx:96-115 | the first free cell among the 2*cols*rows draws, else the first free cell in row-major order, else (0,0) |
| SnakeComponent.IndexInjective | snake-game/src/components/SnakeGame.tsx:98-109 | on the board the key y*cols+x identifies the cell |
| SnakeComponent.FreeMeansOffSnake | snake-game/src/components/SnakeGame.tsx:98-109 | for a snake on the board, a free key means a cell off the snake |
| SnakeComponent.RequestDirection | snake-game/src/components/SnakeGame.tsx:258-261 | a reversal request is dropped; any other replaces the pending one |
| SnakeComponent.Resolve | snake-game/src/components/SnakeGame.tsx:145-150 | a pending non-reversal becomes the heading and is cleared; otherwise nothing changes |
| SnakeComponent.HitsWall | snake-game/src/components/SnakeGame.tsx:125-128 | `isOutOfBounds` holds exactly when the cell is off the cols x rows board |
| SnakeComponent.StepEatingAt | snake-game/src/components/SnakeGame.tsx:141-209 | one tick with the eat check on a given cell: paused ticks change nothing; wall, body or enemy hits end the game; otherwise the snake moves, reaching the cell grows, scores, redraws and cuts the interval by 18 down to 80 |
| SnakeComponent.Step | snake-game/src/components/SnakeGame.tsx:141-209 | the tick with the eat check on the food shown on the board: paused ticks change nothing; wall, body or enemy hits end the game; otherwise the snake moves, eating scores, redraws and cuts the interval by 18 down to 80 |
| SnakeComponent.StepAsWritten | snake-game/src/components/SnakeGame.tsx:139-181 | the tick as the mount-time closure runs it: same moves and collisions, but only the food drawn at mount is ever eaten |
| SnakeComponent.AsWrittenMealMovesFoodAway | snake-game/src/components/SnakeGame.tsx:181-194 | after a meal as written, the food on the board is no longer the cell the eat check looks at |
| SnakeComponent.AsWrittenSkipsDisplayedFood | snake-game/src/components/SnakeGame.tsx:181-206 | reaching the food on the board, when it is not the mount-time food, neither grows the snake nor scores, while the intended step eats it |
| SnakeComponent.TogglePause | snake-game/src/components/SnakeGame.tsx:353 | the pause button flips running and nothing else |
| SnakeComponent.Restart | snake-game/src/components/SnakeGame.tsx:393-402 | restart centres a one-cell snake heading right, clears the request, zeroes the score and resets the interval to 350 |
| SnakeComponent.RestartValid | snake-game/src/components/SnakeGame.tsx:393-402 | the restarted state satisfies the invariant |
| SnakeComponent.RequestKeepsValid | snake-game/src/components/SnakeGame.tsx:258-261 | a request keeps the invariant |
| SnakeComponent.TogglePauseKeepsValid | snake-game/src/components/SnakeGame.tsx:353 | pausing keeps the invariant |
| SnakeComponent.StepKeepsValid | snake-game/src/components/SnakeGame.tsx:141-209 | every tick keeps the invariant |
| SnakeComponent.PendingAlwaysApplied | snake-game/src/components/SnakeGame.tsx:145-150 | in a valid running state the pending request becomes the heading at the next tick and is cleared |
| SnakeComponent.ReversalsIgnored | snake-game/src/components/SnakeGame.tsx:258-261 | any number of reversal requests leave the state unchanged |
| Collision.CheckWallCollision | SnakeGame/src/game/collision.ts:4-6 | a wall hit is exactly a cell off the board |
| Collision.CheckSelfCollision | SnakeGame/src/game/collision.ts:8-10 | a hit is exactly membership in the given segments, never for none |
| Collision.CheckSnakeCollision | SnakeGame/src/game/collision.ts:12-15 | the first head lies on any segment of the second snake, its head included; an empty second snake never collides |
| Collision.SnakeCollidesWithItself | SnakeGame/src/game/collision.ts:12-15 | a non-empty snake always collides with itself under this check |
| SnakeMovement.MoveSnake | SnakeGame/src/game/snakeMovement.ts:4-14 | the head steps along the heading; with grow the old body follows whole, otherwise without its last cell |
| SnakeMovement.ChangeDirection | SnakeGame/src/game/snakeMovement.ts:16-21 | a reversal returns the snake unchanged; any other heading replaces the heading only |
| DuelEngine.ProcessPlayerMove | SnakeGame/src/game/gameEngine.ts:7-26 | a collision is a wall or a body cell after the head, and it commits nothing; otherwise food is eaten exactly when the new head lands on it, and the snake moves, growing if so |
| DuelEngine.TailIsHazard | SnakeGame/src/game/gameEngine.ts:14-20 | stepping into the cell the tail is about to vacate still counts as a collision |
| DuelEngine.ProcessAIMove | SnakeGame/src/game/gameEngine.ts:28-32 | the rival takes the AI's heading, which is never a reversal, and moves without growing |
| DuelEngine.CheckGameOver | SnakeGame/src/game/gameEngine.ts:34-39 | the game is over exactly when either head lies on the other snake; two empty snakes are not over |
| DuelEngine.CheckGameOverSymmetric | SnakeGame/src/game/gameEngine.ts:34-39 | the verdict does not depend on which snake is the player, and meeting heads always end it |
| RivalAI.CountFree | SnakeGame/src/game/aiController.ts:5-18 | the loop counts at most one per heading |
| RivalAI.CountFreeIsCardinality | SnakeGame/src/game/aiController.ts:5-18 | for distinct headings, the loop's count equals the number of headings that lead to a free cell |
| RivalAI.CalculateFreeSpace | SnakeGame/src/game/aiController.ts:5-18 | the bonus is twice the number of free neighbours, so one of 0, 2, 4, 6, 8 |
| RivalAI.Candidates | SnakeGame/src/game/aiController.ts:21-25 | three distinct headings, exactly those that do not reverse the current one |
| RivalAI.ScoreOf | SnakeGame/src/game/aiController.ts:27-41 | a heading into a wall or the body scores -1000; any other scores its free-space bonus minus its Manhattan distance to the food |
| RivalAI.Insert | SnakeGame/src/game/aiController.ts:43 | insertion is a permutation, keeps descending order, and leaves an equal-scoring earlier entry in front |
| RivalAI.SortDesc | SnakeGame/src/game/aiController.ts:43 | the sort is a permutation in descending score order |
| RivalAI.SortHeadIsFirstMax | SnakeGame/src/game/aiController.ts:43 | the stable sort puts the first entry of maximum score at the front |
| RivalAI.SortedHeadIsBestCandidate | SnakeGame/src/game/aiController.ts:43-47 | the front of the sorted scores is the earliest candidate of maximum score |
| RivalAI.GetNextDirection | SnakeGame/src/game/aiController.ts:20-48 | the rival never reverses; if every score is at most -1000 it keeps its heading; otherwise it takes a safe candidate of maximum score that no earlier candidate ties |
| RivalAI.AllUnsafeKeepsHeading | SnakeGame/src/game/aiController.ts:45-47 | with every candidate unsafe, the rival keeps its heading into the hazard |
| FoodGenerator.OccupiedKeys | SnakeGame/src/game/foodGenerator.ts:5-7 | a cell's key is in the occupied set exactly when the cell is on some snake |
| FoodGenerator.DrawLimit | SnakeGame/src/game/foodGenerator.ts:10-19 | the do-while draws at least once and at most gridSize squared times |
| FoodGenerator.Sample | SnakeGame/src/game/foodGenerator.ts:10-19 | the result is a draw; every draw before it was occupied; an occupied result only at the limit |
| FoodGenerator.GenerateFood | SnakeGame/src/game/foodGenerator.ts:4-22 | at most gridSize squared draws, the result on the board, every earlier draw occupied, and an occupied result only when the limit is reached |
| FoodGenerator.GenerateFoodMayReturnOccupied | SnakeGame/src/game/foodGenerator.ts:19-21 | on a 2 x 2 board with one occupied cell, four unlucky draws give occupied food although free cells exist |
| FoodGenerator.ScanFrom | snake-game/src/components/SnakeGame.tsx:107-113 | the row-major scan finds a free cell or proves none is left after its start |
| FoodGenerator.GenerateFoodWithFallback | SnakeGame/src/game/foodGenerator.ts:4-22 | with the row-major fallback, the food is free whenever a free cell exists, and a free sample is kept |
| GameHelpers.GenerateRandomPosition | SnakeGameFinal/src/utils/gameHelpers.ts:3-14 | the first draw off the excluded segments: on the board and never excluded |
| GameHelpers.TerminatesIffFreeCell | SnakeGameFinal/src/utils/gameHelpers.ts:3-14 | some run of the recursive sampler ends exactly when the board has a cell off the excluded list |
| GameHelpers.CheckCollision | SnakeGameFinal/src/utils/gameHelpers.ts:27-35 | a collision is exactly a cell off the board or on any segment, tail included |
| DirectionBuffer.ChangeDirection | SnakeGame/src/hooks/useSnakeMovement.ts:45-69 | a non-reversal is buffered; a reversal leaves the buffer unchanged; the current heading never changes |
| DirectionBuffer.UpdateDirection | SnakeGame/src/hooks/useSnakeMovement.ts:83-94 | the buffered heading becomes the current one |
| DirectionBuffer.ResetDirection | SnakeGame/src/hooks/useSnakeMovement.ts:105-118 | both fields are set to the given heading |
| DirectionBuffer.ResetDirectionValid | SnakeGame/src/hooks/useSnakeMovement.ts:105-118 | after a reset the buffer does not reverse the heading |
| DirectionBuffer.ChangeDirectionKeepsValid | SnakeGame/src/hooks/useSnakeMovement.ts:45-69 | a request never buffers a reversal |
| DirectionBuffer.UpdateDirectionKeepsValid | SnakeGame/src/hooks/useSnakeMovement.ts:83-94 | after an update the buffer agrees with the heading |
| DirectionBuffer.UpdateDirectionIdempotent | SnakeGame/src/hooks/useSnakeMovement.ts:83-94 | updating twice is updating once |
| DirectionBuffer.LastAcceptedRequestWins | SnakeGame/src/hooks/useSnakeMovement.ts:45-69 | between ticks the last non-reversing request is buffered; all-reversing requests change nothing |
| HookGame.MoveSnake | SnakeGame/src/hooks/useGameLogic.ts:44-82 | nothing unless playing; a wall or any segment ends the game and changes nothing else; otherwise the head steps along the buffered heading, eating grows, scores, redraws and cuts the speed to the floor |
| HookGame.GameOverTickCommitsHeading | SnakeGame/src/hooks/useGameLogic.ts:44-56 | the tick that ends the game commits the buffered heading while the state keeps the old one, and pausing then revives the game |
| HookGame.Tick | SnakeGameFinal/src/hooks/useGameLogic.ts:56-95 | the reducer reads the buffered heading, and the buffer is updated in the same tick |
| HookGame.Request | SnakeGame/src/hooks/useSnakeMovement.ts:45-69 | a key press only touches the buffer |
| HookGame.PauseGame | SnakeGame/src/hooks/useGameLogic.ts:101-106 | the status toggles between playing and not, never to game over, and nothing else changes |
| HookGame.PauseGameTwice | SnakeGameFinal/src/hooks/useGameLogic.ts:127-132 | pausing twice restores the state; pausing a finished game resumes it |
| HookGame.StartGame | SnakeGame/src/hooks/useGameLogic.ts:84-99 | the initial snake [(5,5)] heading right, playing, score 0, the initial speed, the stored high score, a reset buffer |
| HookGame.RaiseHighScore | SnakeGameFinal/src/hooks/useGameLogic.ts:148-152 | the high score rises to the score when it is beaten and nothing else changes |
| HookGame.RaiseHighScoreIdempotent | SnakeGame/src/hooks/useGameLogic.ts:108-114 | the effect is idempotent and yields the maximum of score and high score |
| HookGame.StartGameValid | SnakeGameFinal/src/hooks/useGameLogic.ts:97-125 | a new game satisfies the invariant |
| HookGame.RequestKeepsValid | SnakeGame/src/hooks/useSnakeMovement.ts:45-69 | a request keeps the invariant |
| HookGame.PauseKeepsValid | SnakeGame/src/hooks/useGameLogic.ts:101-106 | pausing keeps the invariant |
| HookGame.TickKeepsValid | SnakeGame/src/hooks/useGameLogic.ts:44-82 | every tick keeps the snake well formed on the board, the speed at or above the floor and the buffer non-reversing |
| HookGame.EatenFoodLandsOffSnake | SnakeGameFinal/src/hooks/useGameLogic.ts:79-84 | food redrawn after a meal lies on the board and off the grown snake |
| Cobra.DirecoesAreUnitVectors | JogoCobra/src/utils/constants.ts:11-16 | the four DIRECOES vectors are exactly the unit vectors, in opposite pairs |
| Cobra.GerarComida | JogoCobra/src/utils/constants.ts:19-28 | the food is on the 12 x 12 board and off the snake |
| Cobra.GerarComidaTerminatesIffFreeCell | JogoCobra/src/utils/constants.ts:19-28 | the sampling loop can end exactly when a free cell exists |
| CobraHook.Step | JogoCobra/src/hooks/useSnakeMovement.ts:68-145 | a wall or body hit leaves the state unchanged; otherwise the snake moves, eating adds a point, raises the best, redraws, and in mode MEDIO cuts the interval by 15 down to 80 |
| CobraHook.RequestDirecao | JogoCobra/src/hooks/useSnakeMovement.ts:149-156 | a reversal is ignored; any other vector becomes the heading |
| CobraHook.ResetCobra | JogoCobra/src/hooks/useSnakeMovement.ts:49-64 | a one-cell snake at (6,6) heading right, no points, interval 300; best and mode kept |
| CobraHook.ResetCobraValid | JogoCobra/src/hooks/useSnakeMovement.ts:49-64 | the reset state satisfies the invariant |
| CobraHook.RequestDirecaoKeepsValid | JogoCobra/src/hooks/useSnakeMovement.ts:149-156 | a request with a DIRECOES vector keeps the invariant |
| CobraHook.StepKeepsValid | JogoCobra/src/hooks/useSnakeMovement.ts:68-145 | every tick keeps the invariant and never slows the snake down |
| CobraGame.TerminarJogo | JogoCobra/src/components/Game.tsx:190-193 | the game stops and is over, nothing else changes |
| CobraGame.Step | JogoCobra/src/components/Game.tsx:97-161 | a wall or body hit ends the game; otherwise the snake moves, and eating adds a point, raises the best and redraws |
| CobraGame.RequestDirecao | JogoCobra/src/components/Game.tsx:164-170 | a reversal is ignored; any other vector becomes the heading and runs one step at once |
| CobraGame.RequestDirecaoKeepsValid | JogoCobra/src/components/Game.tsx:164-170 | a swipe with a DIRECOES vector, and the step it runs, keep the invariant |
| CobraGame.Reiniciar | JogoCobra/src/components/Game.tsx:196-209 | a one-cell snake at (6,6) heading right, no points, not over; best kept |
| CobraGame.StepNeverClearsGameOver | JogoCobra/src/components/Game.tsx:97-161 | a step never clears game over |
| CobraGame.ReiniciarValid | JogoCobra/src/components/Game.tsx:196-209 | the restarted state satisfies the invariant |
| CobraGame.StepKeepsValid | JogoCobra/src/components/Game.tsx:97-161 | every step keeps the invariant |
| CobraGame.EatenFoodLandsOffSnake | JogoCobra/src/components/Game.tsx:118-137 | food redrawn after a meal lies on the board and off the grown snake |
| CobraEnemy.Sign | JogoCobra/src/hooks/useEnemyMovement.ts:36-37 | Math.sign: -1, 0 or 1 with the sign of its argument |
| CobraEnemy.Chase | JogoCobra/src/hooks/useEnemyMovement.ts:36-39 | a king's-move step that brings the enemy exactly one Chebyshev step closer, or stays put on the target |
| CobraEnemy.MoverCobraInimiga | JogoCobra/src/hooks/useEnemyMovement.ts:26-107 | outside mode DIFICIL nothing moves; a step onto the player ends the game; off the board the enemy respawns at (10,10); otherwise it advances one cell |
| CobraEnemy.ChaseStaysOnBoard | JogoCobra/src/hooks/useEnemyMovement.ts:60-67 | with both heads on the board, the step stays on the board, so the respawn never fires |
| CobraEnemy.EnemyClosesIn | JogoCobra/src/hooks/useEnemyMovement.ts:36-71 | while the game goes on, every move brings the enemy one step closer |
| CobraEnemy.SharedHeadEndsGame | JogoCobra/src/hooks/useEnemyMovement.ts:46-55 | an enemy sitting on the player's head always ends the game |
| NavalBoard.CreateCell | batalha-naval/src/utils/boardHelpers.ts:6-13 | a cell at the given coordinates, with no ship and no hit |
| NavalBoard.IsInsideBoard | batalha-naval/src/utils/boardHelpers.ts:36-43 | inside exactly when both coordinates lie in [0, 10) |
| NavalBoard.CreateEmptyBoard | batalha-naval/src/utils/boardHelpers.ts:16-33 | 10 rows of 10 fresh cells, each cell knowing its own coordinates, and no ships |
| NavalBoard.EmptyBoardIsBlank | batalha-naval/src/utils/boardHelpers.ts:16-33 | every cell of the empty board is unhit water at its own coordinates |
| ShipPlacement.CellsOf | batalha-naval/src/services/shipPlacement.ts:67-73 | a ship's cells are `size` collinear cells from the start along the orientation |
| ShipPlacement.CanPlaceShip | batalha-naval/src/services/shipPlacement.ts:13-48 | true exactly when every ship cell is on the board and no in-board cell within one step of it (diagonals included) holds a ship |
| ShipPlacement.PlaceShip | batalha-naval/src/services/shipPlacement.ts:53-86 | null exactly when placement is refused; otherwise exactly the ship's cells, free before, are marked, and an unhit ship is appended |
| ShipPlacement.PlaceShipKeepsConsistent | batalha-naval/src/services/shipPlacement.ts:35-45 | a placement keeps the marked cells exactly the ship cells, on the board, with no two ships touching |
| ShipPlacement.PlaceShipKeepsMarksOwned | batalha-naval/src/services/shipPlacement.ts:65-85 | a placement marks only the new ship's cells, so every marked cell still belongs to a ship |
| ShipPlacement.PlaceShipKeepsInvariants | batalha-naval/src/services/shipPlacement.ts:53-86 | placing a ship fires no shot and keeps the fleet invariant |
| ShipPlacement.ShipsConfig | batalha-naval/src/utils/constants.ts:5-11 | the fleet of five: Porta-aviões 5, Cruzador 4, Contratorpedeiro 3, Submarino 3, Patrulha 2 |
| ShipPlacement.ShipsConfigFleet | batalha-naval/src/utils/constants.ts:5-11 | the fleet has five ships with distinct names, each 2 to 10 cells long |
| ShipPlacement.Clear | batalha-naval/src/services/shipPlacement.ts:93-100 | clearing leaves no ships and no cell marked or hit |
| ShipPlacement.TryShip | batalha-naval/src/services/shipPlacement.ts:103-131 | failure means all 100 attempts were refused; success appends an unhit ship of the configured name and size, laid out along its orientation, and keeps the invariants |
| ShipPlacement.TryShipTakesFirstAccepted | batalha-naval/src/services/shipPlacement.ts:107-131 | a success is placeShip at the first attempt canPlaceShip accepts, so the ship lies on that attempt's cells |
| ShipPlacement.PlaceAll | batalha-naval/src/services/shipPlacement.ts:103-139 | the ships placed follow the configuration in order, each laid out on `size` collinear cells; success means every one was placed; on failure the next ship had all of its 100 attempts refused on the board as left; earlier ships stay placed; the invariants are kept |
| ShipPlacement.PlaceFleetRandomly | batalha-naval/src/services/shipPlacement.ts:91-140 | on any outcome the marked cells are exactly the placed ships' cells, no ships touch and no cell is hit; every placed ship is the configured one, laid out on exactly its size in cells; true exactly when the five ships were placed; false only when a ship had all 100 attempts refused |
| ShipPlacement.LaidOutLength | batalha-naval/src/services/shipPlacement.ts:67-73 | a laid-out ship of non-negative size occupies exactly `size` cells |
| ShipPlacement.FleetShipSizes | batalha-naval/src/services/shipPlacement.ts:67-73 | every ship placed from the fleet configuration has as many cells as its configured size |
| ShipPlacement.PlaceAllStep | batalha-naval/src/services/shipPlacement.ts:103-137 | one round of the fleet loop extends the placed prefix by the configured ship |
| ShipPlacement.PlaceAllCons | batalha-naval/src/services/shipPlacement.ts:103-137 | once the first ship is placed, order, layout, success and the failure reason for the rest of the fleet carry over to the whole fleet |
| Shots.FindShip | batalha-naval/src/services/gameLogic.ts:21 | `find` returns the first ship with the id |
| Shots.Shoot | batalha-naval/src/services/gameLogic.ts:4-29 | a hit cell gives water with no ship id and changes nothing; otherwise only the target cell becomes hit; water names no ship and leaves the ships alone; a ship cell adds one hit to the first ship with that id, sunk exactly when its hits reach its size |
| Shots.ShootIdempotent | batalha-naval/src/services/gameLogic.ts:10-14 | shooting the same cell again gives water and changes nothing |
| Shots.EverySunk | batalha-naval/src/services/gameLogic.ts:32 | `every` holds exactly when each ship has at least `size` hits |
| Shots.AreAllShipsSunk | batalha-naval/src/services/gameLogic.ts:31-33 | true exactly when there is a ship and every ship is sunk |
| Shots.ShootKeepsAllSunk | batalha-naval/src/services/gameLogic.ts:21-28 | once the whole fleet is sunk, a further shot keeps it sunk |
| Shots.SunkMeansEnoughHits | batalha-naval/src/services/gameLogic.ts:24-28 | a sunk outcome names a ship that has now taken at least `size` hits |

## Left out

- Rendering, animation (Animated values, segment lists), sound, vibration, swipe and keyboard handlers, timers, intervals, `requestAnimationFrame`, the countdown and all screens: none of them decides a rule.
- Persistence through AsyncStorage and localStorage: the stored best and high scores are parameters.
- snake-game's `endGame` (SnakeGame.tsx:237-255), called from the mount-time `step`, reads `score` from the closure of the first render. That value only decides what is written to storage and what is passed to the `onGameOver` screen callback, both left out; the tick itself never reads `score`.
- CobraHook.Step: the hook reads `pontos` and `melhor` from its render closure (useSnakeMovement.ts:94,97). The model reads the current values, which is what a fresh closure holds; with a stale one the points and the best can be set from an old value.
- CobraGame.RequestDirecao: the swipe handler is created once, through `useRef(PanResponder.create(...))` (Game.tsx:173-187), so every swipe runs the first render's `requestDirecao` and `step`, where `melhor` is the initial 0 (:33). A meal reached that way raises the best to the new points whenever they exceed 0, and writes them to storage, even below a best loaded from storage. The model compares with the current best, so in the model the best never drops.
- The network, lobby and turn handling of batalha-naval (services/network.ts, context, screens): not game rules.
- SnakeGame/src/game/types.ts and SnakeGame/src/game/constants.ts are not part of this model. The snake record and the heading table come from their use sites. The SnakeGame copy of gameHelpers.ts and the SnakeGameFinal useSnakeMovement hook are not part of this model either; they are taken to be identical to the files that are.
- batalha-naval/src/models/ShotResult.ts is not part of this model. Its record is taken to be the outcome, the ship id and the position that `shoot` builds.
- ShipPlacement.PlaceShip: the id built from `Date.now()` and `Math.random()` is a parameter (`Attempt.id` in the fleet loop). Its uniqueness is not modelled.
- Shots.FindShip: because ids need not be unique in the model, `find` returns the first ship with the id, as in the source.
- ShipPlacement.PlaceFleetRandomly: the row, column and orientation draws are any values, not only the in-range values `randomInt(0, 9)` and `randomFromArray` produce. The proved properties hold for every draw, so this is a generalisation. The model proves no bound on how likely success is.
- SnakeMovement.MoveSnake, DuelEngine.ProcessPlayerMove, DuelEngine.ProcessAIMove and the RivalAI functions require a non-empty snake body. The source reads `body[0]` and then its fields, so it throws on an empty body; every call site passes non-empty snakes. Collision.CheckSnakeCollision and DuelEngine.CheckGameOver require non-emptiness only where the source would read a field of `undefined`. PureEngine.UpdateGame, SnakeComponent.Step, SnakeComponent.StepEatingAt, SnakeComponent.StepAsWritten, HookGame.MoveSnake, HookGame.Tick, CobraHook.Step, CobraGame.Step and CobraGame.RequestDirecao require a non-empty snake on every live tick for the same reason: the source reads the head segment's fields. That case is unreachable, because every snake starts with at least one segment and no move shortens it.
- Shots.Shoot: it requires the cell to exist, and an unhit cell with a ship id to name an existing ship. Outside those cases the source throws a TypeError, which the model does not represent.
- Shoot "never mutates its input" holds trivially in a functional model and is not stated.
- GameHelpers.GenerateRandomPosition: covers only runs that end. With no free cell the source recurses without bound, and `Terminates` excludes that case. TerminatesIffFreeCell says exactly when a run can end.
- Cobra.GerarComida: same restriction as GenerateRandomPosition. The do-while loop never ends on a full board.
- HookGame.Valid: it does not include "the state's direction equals the buffer's", because the source does not keep it. No tick runs while paused: the interval's delay is `null` unless the status is playing (SnakeGame/src/SnakeGame.tsx:21, SnakeGameFinal/src/SnakeGame.tsx:20). But the tick that ends the game runs `updateDirection()` first (SnakeGame/src/hooks/useGameLogic.ts:45), which commits the buffered heading, while the reducer returns game over with the old `direction` (:54-56). `pauseGame` can then revive the game (:101-106). After that, `changeDirection`'s reversal guard compares requests with a heading the snake never moved in, so a request that reverses the real heading can pass it. HookGame.GameOverTickCommitsHeading states the drift. The model's Tick also accepts calls outside the playing status; the reducer then returns its input.
- SnakeComponent.Step: it eats at the food shown on the board, the evident intent; the source compares with the food drawn at mount, which StepAsWritten models (see Findings). The rival snake of snake-game is switched off in the source (`enemyActive = false`). It is a parameter with an arbitrary body and has no movement of its own.
- CobraEnemy.MoverCobraInimiga: the enemy's animation (`ENEMY_SPEED` is only its duration) is left out. As written, the advancing branch then reads `enemyAnimSegments` and `CELULA` (useEnemyMovement.ts:81-99), which that file neither declares nor imports. That branch would therefore throw a ReferenceError inside the `setCobraInimiga` updater, and the enemy would never advance. The model gives the evident intent, the position update of one call: the advanced enemy. An empty enemy in mode DIFICIL with a player snake is excluded, because the source then reads a field of `undefined` and throws.
- Integer widths: JavaScript numbers are doubles, but every value here stays far below 2^53, so they are modelled as unbounded integers.

### Modelling choices

- The rival AI of SnakeGame scores the Manhattan distance from the candidate cell to the food (RivalAI.ScoreOf).
- Only snake-game's component falls back to a linear scan when random food placement fails. The two-snake game's `generateFood` has no fallback (see Findings); the SnakeGameFinal and JogoCobra samplers draw until a free cell comes up.
- Every Snake variant's collision check covers the whole body, tail included. The cell about to be vacated therefore counts as a hazard (DuelEngine.TailIsHazard).

## Findings

| source | as written | input that shows it | evidently intended | confidence | as-written member | corrected member |
|---|---|---|---|---|---|---|
| SnakeGame/src/game/foodGenerator.ts:19-21 | after gridSize*gridSize rejected draws, the last draw is returned even though it lies on a snake | gridSize 2, one snake on (0,0), four draws of (0,0): the food is (0,0) on the snake while (1,1) is free | food on a free cell whenever one exists, as the row-major fallback of snake-game's randomFoodPosition does | not executed | FoodGenerator.GenerateFoodMayReturnOccupied | FoodGenerator.GenerateFoodWithFallback |
| snake-game/src/components/SnakeGame.tsx:139-181 | `step` is created once, in an effect with no dependencies; snake, direction, running and speed are read through refs, but the eat check `equal(newHead, food)` reads the `food` state captured at mount | the first meal at the initial food F draws a new food G off the grown snake, so G differs from F; the board shows G, and the head moving onto G neither grows nor scores, while an unseen meal still waits at F; the food set by Restart is not eaten either unless it happens to be F | the eat check on the current food, as the other states get through their refs | high; not executed | SnakeComponent.StepAsWritten | SnakeComponent.Step |

=== FILE: cobra.dfy ===
/**
  The board of JogoCobra (src/utils/constants.ts): a 12 x 12 grid, the
  four heading vectors DIRECOES, the food sampler gerarComida and the cell
  comparison igual (Geometry.SamePos). Headings in JogoCobra are plain
  vectors, not names.
*/
module Cobra {
  import opened Geometry
  import opened GameHelpers

  const GridSize: int := 12

  /** DIRECOES */
  const Cima: Pos := Pos(0, -1)
  const Baixo: Pos := Pos(0, 1)
  const Esquerda: Pos := Pos(-1, 0)
  const Direita: Pos := Pos(1, 0)

  predicate IsDirecao(v: Pos)
  {
    v == Cima || v == Baixo || v == Esquerda || v == Direita
  }

  /** The four vectors are the unit vectors of the named headings, in
      opposite pairs, and the only unit vectors there are. */
  lemma DirecoesAreUnitVectors()
    ensures Cima == Delta(Up) && Baixo == Delta(Down)
    ensures Esquerda == Delta(Left) && Direita == Delta(Right)
    ensures Cima == Neg(Baixo) && Esquerda == Neg(Direita)
    ensures forall v :: IsDirecao(v) <==> IsUnit(v)
  {
  }

  /** The centre cell (floor(GRID_SIZE / 2), floor(GRID_SIZE / 2)). */
  const Start: Pos := Pos(GridSize / 2, GridSize / 2)

  /** gerarComida: the do-while draws until a cell off `cobra` comes up,
      which is the recursive sampler of GameHelpers on the 12 x 12 board. */
  function GerarComida(cobra: seq<Pos>, draws: seq<Pos>): (p: Pos)
    requires AllCellDraws(GridSize, draws) && Terminates(cobra, draws)
    ensures InSquare(p, GridSize) && p !in cobra
  {
    GenerateRandomPosition(GridSize, cobra, draws)
  }

  /** gerarComida has a terminating run exactly when `cobra` leaves a
      cell of the board free. */
  lemma GerarComidaTerminatesIffFreeCell(cobra: seq<Pos>)
    ensures (exists draws :: AllCellDraws(GridSize, draws) && Terminates(cobra, draws))
      <==> (exists p :: InSquare(p, GridSize) && p !in cobra)
  {
    TerminatesIffFreeCell(GridSize, cobra);
  }
}

/**
  The step, requestDirecao and resetCobra of
  JogoCobra/src/hooks/useSnakeMovement.ts. A collision leaves the state as
  it was and signals nothing. The score is read from the state rather than
  from the render closure that the source captures.
*/
module CobraHook {
  import opened Geometry
  import opened Opt
  import opened Cobra

  /** MOVE_INTERVAL_MS, the floor and the cut of mode "MEDIO". */
  const MoveInterval: int := 300
  const SpeedFloor: int := 80
  const SpeedCut: int := 15

  datatype State = State(
    cobra: seq<Pos>,
    direcao: Pos,
    comida: Pos,
    pontos: int,
    melhor: int,
    velocidade: int,
    modo: Option<string>)

  function Max(a: int, b: int): int
  {
    if a < b then b else a
  }

  /** The tick is blocked: the wall or any segment, tail included. */
  predicate Blocked(s: State)
    requires |s.cobra| > 0
  {
    var h := Add(s.cobra[0], s.direcao);
    !InSquare(h, GridSize) || h in s.cobra
  }

  /** step, with `novaComida` the gerarComida draw used on eating. */
  function Step(s: State, novaComida: Pos): (r: State)
    requires |s.cobra| > 0
    // a blocked tick changes nothing at all
    ensures Blocked(s) ==> r == s
    ensures !Blocked(s) ==> |r.cobra| == |s.cobra| || |r.cobra| == |s.cobra| + 1
    ensures !Blocked(s) ==>
      && r.cobra[0] == Add(s.cobra[0], s.direcao)
      && (forall i :: 1 <= i < |r.cobra| ==> r.cobra[i] == s.cobra[i - 1])
      && r.direcao == s.direcao && r.modo == s.modo
    // eating: one more cell and point, the best raised, speed cut in MEDIO
    ensures !Blocked(s) && r.cobra[0] == s.comida ==>
      && |r.cobra| == |s.cobra| + 1
      && r.pontos == s.pontos + 1
      && r.melhor == Max(s.pontos + 1, s.melhor)
      && r.comida == novaComida
      && r.velocidade == (if s.modo == Some("MEDIO") then Max(SpeedFloor, s.velocidade - SpeedCut) else s.velocidade)
    ensures !Blocked(s) && r.cobra[0] != s.comida ==>
      && |r.cobra| == |s.cobra|
      && r.pontos == s.pontos && r.melhor == s.melhor
      && r.comida == s.comida && r.velocidade == s.velocidade
  {
    var head := s.cobra[0];
    var novaHead := Add(head, s.direcao);
    if novaHead.x < 0 || novaHead.x >= GridSize || novaHead.y < 0 || novaHead.y >= GridSize then s
    else if exists i :: 0 <= i < |s.cobra| && SamePos(s.cobra[i], novaHead) then s
    else if SamePos(novaHead, s.comida) then
      var novaPont := s.pontos + 1;
      s.(cobra := Advance(s.cobra, novaHead, true),
         pontos := novaPont,
         melhor := if novaPont > s.melhor then novaPont else s.melhor,
         velocidade := if s.modo == Some("MEDIO") then Max(SpeedFloor, s.velocidade - SpeedCut) else s.velocidade,
         comida := novaComida)
    else
      s.(cobra := Advance(s.cobra, novaHead, false))
  }

  /** requestDirecao: the exact negation of the current vector is ignored;
      any other vector is stored. */
  function RequestDirecao(s: State, nova: Pos): (r: State)
    ensures nova == Neg(s.direcao) ==> r == s
    ensures nova != Neg(s.direcao) ==> r == s.(direcao := nova)
  {
    if nova.x == -s.direcao.x && nova.y == -s.direcao.y then s else s.(direcao := nova)
  }

  /** resetCobra, with `comida` the gerarComida draw for the centre snake;
      the best score and the mode stay. */
  function ResetCobra(s: State, comida: Pos): (r: State)
    ensures r.cobra == [Start] && r.direcao == Direita && r.comida == comida
    ensures r.pontos == 0 && r.velocidade == MoveInterval
    ensures r.melhor == s.melhor && r.modo == s.modo
  {
    s.(cobra := [Start], direcao := Direita, comida := comida, pontos := 0, velocidade := MoveInterval)
  }

  /** The invariant: a well-formed snake on the board, a unit heading, the
      best at least the score, and a speed in [80, 300]. */
  predicate Valid(s: State)
  {
    && WellFormed(s.cobra)
    && (forall p :: p in s.cobra ==> InSquare(p, GridSize))
    && IsUnit(s.direcao)
    && s.melhor >= s.pontos
    && SpeedFloor <= s.velocidade <= MoveInterval
  }

  lemma ResetCobraValid(s: State, comida: Pos)
    requires s.melhor >= 0
    ensures Valid(ResetCobra(s, comida))
  {
  }

  lemma RequestDirecaoKeepsValid(s: State, nova: Pos)
    requires Valid(s) && IsDirecao(nova)
    ensures Valid(RequestDirecao(s, nova))
  {
  }

  /** Every tick keeps the invariant: in particular speed never drops
      below 80 and never rises. */
  lemma StepKeepsValid(s: State, novaComida: Pos)
    requires Valid(s)
    ensures Valid(Step(s, novaComida))
    ensures Step(s, novaComida).velocidade <= s.velocidade
  {
    var r := Step(s, novaComida);
    if !Blocked(s) {
      var h := Add(s.cobra[0], s.direcao);
      assert Adjacent(h, s.cobra[0]);
      AdvanceKeepsWellFormed(s.cobra, h, h == s.comida);
      forall p | p in r.cobra
        ensures InSquare(p, GridSize)
      {
        var i :| 0 <= i < |r.cobra| && r.cobra[i] == p;
        if i > 0 {
          assert p == s.cobra[i - 1];
        }
      }
    }
  }
}

/**
  The step, requestDirecao, terminarJogo and reiniciar of
  JogoCobra/src/components/Game.tsx. Unlike the hook, a collision ends the
  game. The direction ref and the direction state always agree after each
  of these operations, so they are one field here.
*/
module CobraGame {
  import opened Geometry
  import opened Cobra

  datatype State = State(
    cobra: seq<Pos>,
    direcao: Pos,
    comida: Pos,
    pontos: int,
    melhor: int,
    jogando: bool,
    gameOver: bool)

  /** terminarJogo */
  function TerminarJogo(s: State): (r: State)
    ensures !r.jogando && r.gameOver
    ensures r.(jogando := s.jogando, gameOver := s.gameOver) == s
  {
    s.(jogando := false, gameOver := true)
  }

  predicate Blocked(s: State)
    requires |s.cobra| > 0
  {
    var h := Add(s.cobra[0], s.direcao);
    !InSquare(h, GridSize) || h in s.cobra
  }

  /** step, with `next` the gerarComida draw used on eating. */
  function Step(s: State, next: Pos): (r: State)
    requires |s.cobra| > 0
    // a collision ends the game and keeps the snake
    ensures Blocked(s) ==> r == TerminarJogo(s)
    ensures !Blocked(s) ==> |r.cobra| == |s.cobra| || |r.cobra| == |s.cobra| + 1
    ensures !Blocked(s) ==>
      && r.cobra[0] == Add(s.cobra[0], s.direcao)
      && (forall i :: 1 <= i < |r.cobra| ==> r.cobra[i] == s.cobra[i - 1])
      && r.direcao == s.direcao && r.jogando == s.jogando && r.gameOver == s.gameOver
    ensures !Blocked(s) && r.cobra[0] == s.comida ==>
      && |r.cobra| == |s.cobra| + 1
      && r.pontos == s.pontos + 1
      && r.melhor == (if s.pontos + 1 > s.melhor then s.pontos + 1 else s.melhor)
      && r.comida == next
    ensures !Blocked(s) && r.cobra[0] != s.comida ==>
      && |r.cobra| == |s.cobra|
      && r.pontos == s.pontos && r.melhor == s.melhor && r.comida == s.comida
  {
    var head := s.cobra[0];
    var novaHead := Add(head, s.direcao);
    if novaHead.x < 0 || novaHead.x >= GridSize || novaHead.y < 0 || novaHead.y >= GridSize then
      TerminarJogo(s)
    else if exists i :: 0 <= i < |s.cobra| && SamePos(s.cobra[i], novaHead) then
      TerminarJogo(s)
    else if SamePos(novaHead, s.comida) then
      var np := s.pontos + 1;
      s.(cobra := Advance(s.cobra, novaHead, true),
         pontos := np,
         melhor := if np > s.melhor then np else s.melhor,
         comida := next)
    else
      s.(cobra := Advance(s.cobra, novaHead, false))
  }

  /** requestDirecao: a reversal is ignored; otherwise the heading is set
      and one step runs at once. */
  function RequestDirecao(s: State, nova: Pos, next: Pos): (r: State)
    requires |s.cobra| > 0
    ensures nova == Neg(s.direcao) ==> r == s
    ensures nova != Neg(s.direcao) ==> r == Step(s.(direcao := nova), next)
  {
    if nova.x == -s.direcao.x && nova.y == -s.direcao.y then s
    else Step(s.(direcao := nova), next)
  }

  /** reiniciar, with `comida` the gerarComida draw; play resumes only
      after the countdown, which is not modelled, so `jogando` stays. */
  function Reiniciar(s: State, comida: Pos): (r: State)
    ensures r.cobra == [Start] && r.direcao == Direita && r.comida == comida
    ensures r.pontos == 0 && !r.gameOver
    ensures r.melhor == s.melhor && r.jogando == s.jogando
  {
    s.(cobra := [Start], direcao := Direita, comida := comida, pontos := 0, gameOver := false)
  }

  /** A step never clears the game-over flag. */
  lemma StepNeverClearsGameOver(s: State, next: Pos)
    requires |s.cobra| > 0 && s.gameOver
    ensures Step(s, next).gameOver
  {
  }

  predicate Valid(s: State)
  {
    && WellFormed(s.cobra)
    && (forall p :: p in s.cobra ==> InSquare(p, GridSize))
    && IsUnit(s.direcao)
    && s.melhor >= s.pontos
  }

  lemma ReiniciarValid(s: State, comida: Pos)
    requires s.melhor >= 0
    ensures Valid(Reiniciar(s, comida))
  {
  }

  /** A swipe with a DIRECOES vector keeps the invariant, the immediate
      step included. */
  lemma RequestDirecaoKeepsValid(s: State, nova: Pos, next: Pos)
    requires Valid(s) && IsDirecao(nova)
    ensures Valid(RequestDirecao(s, nova, next))
  {
    if nova != Neg(s.direcao) {
      StepKeepsValid(s.(direcao := nova), next);
    }
  }

  lemma StepKeepsValid(s: State, next: Pos)
    requires Valid(s)
    ensures Valid(Step(s, next))
  {
    var r := Step(s, next);
    if !Blocked(s) {
      var h := Add(s.cobra[0], s.direcao);
      assert Adjacent(h, s.cobra[0]);
      AdvanceKeepsWellFormed(s.cobra, h, h == s.comida);
      forall p | p in r.cobra
        ensures InSquare(p, GridSize)
      {
        var i :| 0 <= i < |r.cobra| && r.cobra[i] == p;
        if i > 0 {
          assert p == s.cobra[i - 1];
        }
      }
    }
  }

  /** The food drawn after eating lands off the grown snake. */
  lemma EatenFoodLandsOffSnake(s: State, draws: seq<Pos>)
    requires |s.cobra| > 0 && Add(s.cobra[0], s.direcao) == s.comida
    requires AllCellDraws(GridSize, draws)
    requires GameHelpers.Terminates([s.comida] + s.cobra, draws)
    ensures var r := Step(s, GerarComida([s.comida] + s.cobra, draws));
      !Blocked(s) ==> r.comida !in r.cobra && InSquare(r.comida, GridSize)
  {
    var r := Step(s, GerarComida([s.comida] + s.cobra, draws));
    if !Blocked(s) {
      assert r.cobra == [s.comida] + s.cobra;
    }
  }
}

/**
  The position logic of moverCobraInimiga
  (JogoCobra/src/hooks/useEnemyMovement.ts): the enemy steps by the sign
  vector toward the player's head, so it may move diagonally.
*/
module CobraEnemy {
  import opened Geometry
  import opened Opt
  import opened Cobra

  /** Math.sign on integers. */
  function Sign(n: int): (r: int)
    ensures -1 <= r <= 1 && (r > 0 <==> n > 0) && (r < 0 <==> n < 0)
  {
    if n > 0 then 1 else if n < 0 then -1 else 0
  }

  /** The respawn cell (GRID_SIZE - 2, GRID_SIZE - 2). */
  const Respawn: Pos := Pos(GridSize - 2, GridSize - 2)

  datatype EnemyMove = EnemyMove(inimiga: seq<Pos>, terminar: bool)

  /** The enemy head's next cell. */
  function Chase(head: Pos, alvo: Pos): (n: Pos)
    ensures Chebyshev(n, head) <= 1
    ensures head != alvo ==> Chebyshev(n, alvo) + 1 == Chebyshev(head, alvo)
    ensures head == alvo ==> n == head
  {
    Pos(head.x + Sign(alvo.x - head.x), head.y + Sign(alvo.y - head.y))
  }

  /** moverCobraInimiga. */
  function MoverCobraInimiga(modo: Option<string>, cobra: seq<Pos>, inimiga: seq<Pos>): (r: EnemyMove)
    // the source reads the enemy head only after both early returns
    requires modo == Some("DIFICIL") && cobra != [] ==> |inimiga| > 0
    // nothing outside mode "DIFICIL" or without a player snake
    ensures modo != Some("DIFICIL") || cobra == [] ==> r == EnemyMove(inimiga, false)
    ensures modo == Some("DIFICIL") && cobra != [] ==>
      var n := Chase(inimiga[0], cobra[0]);
      && (r.terminar <==> n in cobra)
      && (r.terminar ==> r.inimiga == inimiga)
      && (!r.terminar && !InSquare(n, GridSize) ==> r.inimiga == [Respawn])
      && (!r.terminar && InSquare(n, GridSize) ==>
            && |r.inimiga| == |inimiga|
            && r.inimiga[0] == n
            && forall i :: 1 <= i < |r.inimiga| ==> r.inimiga[i] == inimiga[i - 1])
  {
    if modo != Some("DIFICIL") then EnemyMove(inimiga, false)
    else if cobra == [] then EnemyMove(inimiga, false)
    else
      var head := inimiga[0];
      var alvo := cobra[0];
      var novaHead := Pos(head.x + Sign(alvo.x - head.x), head.y + Sign(alvo.y - head.y));
      if exists i :: 0 <= i < |cobra| && SamePos(cobra[i], novaHead) then EnemyMove(inimiga, true)
      else if SamePos(cobra[0], novaHead) then EnemyMove(inimiga, true)
      else if novaHead.x < 0 || novaHead.x >= GridSize || novaHead.y < 0 || novaHead.y >= GridSize then
        EnemyMove([Respawn], false)
      else EnemyMove(Advance(inimiga, novaHead, false), false)
  }

  /** The sign step lands between the enemy head and the target, so with
      both heads on the board the respawn branch is never taken. */
  lemma ChaseStaysOnBoard(head: Pos, alvo: Pos)
    requires InSquare(head, GridSize) && InSquare(alvo, GridSize)
    ensures InSquare(Chase(head, alvo), GridSize)
  {
  }

  /** While the heads differ and nothing collides, every move brings the
      enemy one step closer in Chebyshev distance. */
  lemma EnemyClosesIn(modo: Option<string>, cobra: seq<Pos>, inimiga: seq<Pos>)
    requires |inimiga| > 0 && |cobra| > 0 && modo == Some("DIFICIL")
    requires InSquare(inimiga[0], GridSize) && InSquare(cobra[0], GridSize)
    requires inimiga[0] != cobra[0]
    ensures var r := MoverCobraInimiga(modo, cobra, inimiga);
      !r.terminar ==> Chebyshev(r.inimiga[0], cobra[0]) + 1 == Chebyshev(inimiga[0], cobra[0])
  {
    ChaseStaysOnBoard(inimiga[0], cobra[0]);
  }

  /** An enemy whose head sits on the player's head always ends the game. */
  lemma SharedHeadEndsGame(cobra: seq<Pos>, inimiga: seq<Pos>)
    requires |inimiga| > 0 && |cobra| > 0 && inimiga[0] == cobra[0]
    ensures MoverCobraInimiga(Some("DIFICIL"), cobra, inimiga).terminar
  {
    assert Chase(inimiga[0], cobra[0]) == cobra[0];
  }
}

=== FILE: duel.dfy ===
/**
  The snake record of the two-snake game (SnakeGame/src/game). The record's
  own declaration file, SnakeGame/src/game/types.ts, is not part of this
  model: a snake is taken to be its body (head first) and its heading,
  with the standard unit-vector headings of module Geometry.
*/
module Snakes {
  import opened Geometry

  datatype Snake = Snake(body: seq<Pos>, direction: Dir)
}

/** SnakeGame/src/game/collision.ts */
module Collision {
  import opened Geometry
  import opened Snakes

  /** checkWallCollision: outside [0, gridSize)^2. */
  function CheckWallCollision(pos: Pos, gridSize: int): (r: bool)
    ensures r <==> !InSquare(pos, gridSize)
  {
    pos.x < 0 || pos.x >= gridSize || pos.y < 0 || pos.y >= gridSize
  }

  /** checkSelfCollision: the cell is one of the given segments (so never
      for an empty list). */
  function CheckSelfCollision(head: Pos, body: seq<Pos>): (r: bool)
    ensures r <==> head in body
    ensures body == [] ==> !r
  {
    exists i :: 0 <= i < |body| && SamePos(body[i], head)
  }

  /** checkSnakeCollision: the head of `s1` lies on any segment of `s2`,
      the head of `s2` included. An empty `s2` gives false without reading
      the head; an empty `s1` against segments makes the source throw. */
  function CheckSnakeCollision(s1: Snake, s2: Snake): (r: bool)
    requires |s2.body| > 0 ==> |s1.body| > 0
    ensures r <==> |s1.body| > 0 && s1.body[0] in s2.body
    ensures s2.body == [] ==> !r
  {
    if |s2.body| == 0 then false
    else CheckSelfCollision(s1.body[0], s2.body)
  }

  /** Every non-empty snake collides with itself under this check. */
  lemma SnakeCollidesWithItself(s: Snake)
    requires |s.body| > 0
    ensures CheckSnakeCollision(s, s)
  {
    assert s.body[0] in s.body;
  }
}

/** SnakeGame/src/game/snakeMovement.ts */
module SnakeMovement {
  import opened Geometry
  import opened Snakes

  /** moveSnake: the head steps once along the heading, the body follows;
      with `grow` the old body is kept whole, otherwise its last cell goes. */
  function MoveSnake(snake: Snake, grow: bool): (r: Snake)
    requires |snake.body| > 0
    ensures |r.body| == if grow then |snake.body| + 1 else |snake.body|
    ensures r.direction == snake.direction
    ensures r.body[0] == Move(snake.body[0], snake.direction)
    ensures grow ==> r.body[1..] == snake.body
    ensures !grow ==> r.body[1..] == snake.body[..|snake.body| - 1]
  {
    var newHead := Move(snake.body[0], snake.direction);
    var r := snake.(body := Advance(snake.body, newHead, grow));
    assert grow ==> r.body[1..] == snake.body;
    assert !grow ==> r.body[1..] == snake.body[..|snake.body| - 1];
    r
  }

  /** changeDirection: a reversal returns the snake unchanged; any other
      heading replaces the heading and nothing else. */
  function ChangeDirection(snake: Snake, newDirection: Dir): (r: Snake)
    ensures newDirection == Opposite(snake.direction) ==> r == snake
    ensures newDirection != Opposite(snake.direction) ==>
      r.direction == newDirection && r.body == snake.body
    ensures r.direction != Opposite(snake.direction)
  {
    if newDirection == Opposite(snake.direction) then snake
    else snake.(direction := newDirection)
  }
}

/** SnakeGame/src/game/gameEngine.ts */
module DuelEngine {
  import opened Geometry
  import opened Snakes
  import opened Collision
  import opened SnakeMovement
  import opened RivalAI

  datatype PlayerMove = PlayerMove(newPlayer: Snake, ateFood: bool, collision: bool)

  /** processPlayerMove. The body check skips the head (`body.slice(1)`)
      but still covers the tail cell that this move would vacate. */
  function ProcessPlayerMove(player: Snake, food: Pos, gridSize: int): (m: PlayerMove)
    requires |player.body| > 0
    ensures m.collision <==>
      var h := Move(player.body[0], player.direction);
      !InSquare(h, gridSize) || h in player.body[1..]
    // a collision commits nothing
    ensures m.collision ==> m.newPlayer == player && !m.ateFood
    // otherwise food is eaten exactly when the new head lands on it
    ensures !m.collision ==>
      (m.ateFood <==> Move(player.body[0], player.direction) == food)
      && m.newPlayer == MoveSnake(player, m.ateFood)
    ensures !(m.collision && m.ateFood)
  {
    var head := player.body[0];
    var newHead := Move(head, player.direction);
    if CheckWallCollision(newHead, gridSize) || CheckSelfCollision(newHead, player.body[1..]) then
      PlayerMove(player, false, true)
    else
      var ateFood := SamePos(newHead, food);
      PlayerMove(MoveSnake(player, ateFood), ateFood, false)
  }

  /** The tail cell counts as a hazard: a snake of two or more cells
      cannot step into the cell its tail is about to leave. */
  lemma TailIsHazard(player: Snake, food: Pos, gridSize: int)
    requires |player.body| >= 2
    requires Move(player.body[0], player.direction) == player.body[|player.body| - 1]
    ensures ProcessPlayerMove(player, food, gridSize).collision
  {
    var rest := player.body[1..];
    assert rest[|rest| - 1] == player.body[|player.body| - 1];
  }

  /** processAIMove: the rival turns as getNextDirection says and moves
      without growing. */
  function ProcessAIMove(ai: Snake, food: Pos, gridSize: int): (r: Snake)
    requires |ai.body| > 0
    ensures r.direction == GetNextDirection(ai, food, gridSize)
    ensures r.direction != Opposite(ai.direction)
    ensures |r.body| == |ai.body|
    ensures r.body[0] == Move(ai.body[0], r.direction)
  {
    var updated := ai.(direction := GetNextDirection(ai, food, gridSize));
    MoveSnake(updated, false)
  }

  /** checkGameOver: either head lies on the other snake. Two empty snakes
      are not over; one empty snake against a non-empty one makes the
      source throw. */
  function CheckGameOver(player: Snake, ai: Snake): (r: bool)
    requires |player.body| > 0 <==> |ai.body| > 0
    ensures r <==> |player.body| > 0 && (player.body[0] in ai.body || ai.body[0] in player.body)
  {
    CheckSnakeCollision(player, ai) || CheckSnakeCollision(ai, player)
  }

  /** checkGameOver does not depend on which snake is the player, and two
      snakes whose heads meet are always over. */
  lemma CheckGameOverSymmetric(a: Snake, b: Snake)
    requires |a.body| > 0 && |b.body| > 0
    ensures CheckGameOver(a, b) == CheckGameOver(b, a)
    ensures a.body[0] == b.body[0] ==> CheckGameOver(a, b)
  {
    assert b.body[0] in b.body;
  }
}

=== FILE: food.dfy ===
/**
  generateFood of the two-snake game (SnakeGame/src/game/foodGenerator.ts):
  a do-while rejection sampler over the keys of the occupied cells,
  bounded by gridSize * gridSize draws and with no fallback, so that its
  result can be an occupied cell. The draws of Math.random are the given
  sequence `draws`; any sequence of in-range cells is a possible run.
*/
module FoodGenerator {
  import opened Geometry
  import opened Opt
  import opened Snakes
  import opened PosText

  /** The cell lies on the body of one of the snakes. */
  predicate Occupied(snakes: seq<Snake>, p: Pos)
  {
    exists k :: 0 <= k < |snakes| && p in snakes[k].body
  }

  /** The set of keys `${x},${y}` of every segment of every snake: it
      holds the key of a cell exactly when the cell is occupied. */
  function OccupiedKeys(snakes: seq<Snake>): (keys: set<string>)
    ensures forall p :: PositionToString(p) in keys <==> Occupied(snakes, p)
  {
    var keys := set k, i | 0 <= k < |snakes| && 0 <= i < |snakes[k].body| :: PositionToString(snakes[k].body[i]);
    forall p | PositionToString(p) in keys ensures Occupied(snakes, p) {
      var k, i :| 0 <= k < |snakes| && 0 <= i < |snakes[k].body| && PositionToString(snakes[k].body[i]) == PositionToString(p);
      PositionToStringInjective(snakes[k].body[i], p);
    }
    forall p | Occupied(snakes, p) ensures PositionToString(p) in keys {
      var k :| 0 <= k < |snakes| && p in snakes[k].body;
      var i :| 0 <= i < |snakes[k].body| && snakes[k].body[i] == p;
    }
    keys
  }

  /** The draw limit `maxAttempts = gridSize * gridSize`; the do-while
      draws at least once whatever the limit. */
  function DrawLimit(gridSize: int): (n: int)
    ensures n >= 1 && (gridSize != 0 ==> n == gridSize * gridSize)
  {
    if gridSize * gridSize < 1 then 1 else gridSize * gridSize
  }

  datatype Generated = Generated(food: Pos, attempts: nat)

  /** The do-while from the draw with index `attempts` on; a draw is
      rejected when its key is in `occupied`. */
  function Sample(occupied: set<string>, key: Pos -> string, draws: seq<Pos>, attempts: nat, maxAttempts: int): (g: Generated)
    requires attempts < |draws| && maxAttempts <= |draws|
    ensures attempts < g.attempts <= |draws|
    ensures g.food == draws[g.attempts - 1]
    ensures forall i :: attempts <= i < g.attempts - 1 ==> key(draws[i]) in occupied
    ensures key(g.food) in occupied ==> g.attempts >= maxAttempts
    ensures g.attempts > attempts + 1 ==> g.attempts <= maxAttempts
    decreases |draws| - attempts
  {
    var food := draws[attempts];
    if key(food) in occupied && attempts + 1 < maxAttempts then
      Sample(occupied, key, draws, attempts + 1, maxAttempts)
    else
      Generated(food, attempts + 1)
  }

  /** generateFood, returning the number of draws as well. */
  function GenerateFood(gridSize: int, snakes: seq<Snake>, draws: seq<Pos>): (g: Generated)
    requires |draws| >= DrawLimit(gridSize) && AllCellDraws(gridSize, draws)
    // it terminates after at most gridSize^2 draws
    ensures 1 <= g.attempts <= DrawLimit(gridSize)
    ensures g.food == draws[g.attempts - 1]
    ensures gridSize > 0 ==> InSquare(g.food, gridSize)
    // every earlier draw was an occupied cell
    ensures forall i :: 0 <= i < g.attempts - 1 ==> Occupied(snakes, draws[i])
    // an occupied result only when the limit was reached
    ensures Occupied(snakes, g.food) ==> g.attempts == DrawLimit(gridSize)
  {
    var occupied := OccupiedKeys(snakes);
    var g := Sample(occupied, PositionToString, draws, 0, gridSize * gridSize);
    assert CellDraw(gridSize, draws[g.attempts - 1]);
    g
  }

  /** With no fallback the result can be occupied although a free cell
      exists: on a 2 x 2 board with one snake cell at (0,0), four draws of
      (0,0) give the food (0,0), while (1,1) is free. */
  lemma GenerateFoodMayReturnOccupied()
    ensures var snakes := [Snake([Pos(0, 0)], Right)];
      && !Occupied(snakes, Pos(1, 1))
      && Occupied(snakes, GenerateFood(2, snakes, [Pos(0, 0), Pos(0, 0), Pos(0, 0), Pos(0, 0)]).food)
  {
    var snakes := [Snake([Pos(0, 0)], Right)];
    var draws := [Pos(0, 0), Pos(0, 0), Pos(0, 0), Pos(0, 0)];
    assert AllCellDraws(2, draws);
    var g := GenerateFood(2, snakes, draws);
    assert g.food == draws[g.attempts - 1] == Pos(0, 0);
    assert Pos(0, 0) in snakes[0].body;
  }

  /** The first free cell in row-major order from (x, y) on. */
  function ScanFrom(gridSize: int, occupied: set<string>, x: int, y: int): (r: Option<Pos>)
    requires 0 <= x <= gridSize && 0 <= y <= gridSize
    ensures r.Some? ==> InSquare(r.value, gridSize) && PositionToString(r.value) !in occupied
    ensures r.None? ==> forall p :: (InSquare(p, gridSize) && (p.y > y || (p.y == y && p.x >= x))
      ==> PositionToString(p) in occupied)
    decreases gridSize - y, gridSize - x
  {
    if y == gridSize then None
    else if x == gridSize then ScanFrom(gridSize, occupied, 0, y + 1)
    else if PositionToString(Pos(x, y)) !in occupied then Some(Pos(x, y))
    else ScanFrom(gridSize, occupied, x + 1, y)
  }

  /** generateFood as evidently intended: the bounded sampler, then a
      row-major scan for a free cell when the last draw is occupied. */
  function GenerateFoodWithFallback(gridSize: int, snakes: seq<Snake>, draws: seq<Pos>): (food: Pos)
    requires |draws| >= DrawLimit(gridSize) && AllCellDraws(gridSize, draws)
    ensures gridSize > 0 ==> InSquare(food, gridSize)
    // whenever a free cell exists, the food lands on one
    ensures (exists p :: InSquare(p, gridSize) && !Occupied(snakes, p)) ==> !Occupied(snakes, food)
    // a free sampled cell is kept
    ensures !Occupied(snakes, GenerateFood(gridSize, snakes, draws).food) ==>
      food == GenerateFood(gridSize, snakes, draws).food
  {
    var sampled := GenerateFood(gridSize, snakes, draws).food;
    if gridSize > 0 && Occupied(snakes, sampled) then
      match ScanFrom(gridSize, OccupiedKeys(snakes), 0, 0)
      case Some(p) => p
      case None => sampled
    else sampled
  }
}

/**
  The helpers of SnakeGameFinal (src/utils/gameHelpers.ts); the English
  copy of the same helpers imported by SnakeGame/src/hooks is not part of
  this model and is taken to be identical. getNextHeadPosition is
  Geometry.Move, getOppositeDirection is Geometry.Opposite and
  checkFoodCollision is Geometry.SamePos.
*/
module GameHelpers {
  import opened Geometry

  /** The run of the recursive sampler ends within the draws given: some
      draw is off `exclude`. */
  predicate Terminates(exclude: seq<Pos>, draws: seq<Pos>)
  {
    exists i :: 0 <= i < |draws| && draws[i] !in exclude
  }

  /** generateRandomPosition: the first draw that is not a segment of
      `exclude`. It recurses without bound, so a terminating run is a
      precondition. */
  function GenerateRandomPosition(boardSize: int, exclude: seq<Pos>, draws: seq<Pos>): (p: Pos)
    requires AllCellDraws(boardSize, draws) && Terminates(exclude, draws)
    ensures p !in exclude
    ensures boardSize > 0 ==> InSquare(p, boardSize)
    ensures exists k :: (0 <= k < |draws| && draws[k] == p
      && forall j :: 0 <= j < k ==> draws[j] in exclude)
  {
    assert CellDraw(boardSize, draws[0]);
    if draws[0] !in exclude then draws[0]
    else
      var rest := draws[1..];
      var i :| 0 <= i < |draws| && draws[i] !in exclude;
      assert rest[i - 1] == draws[i];
      var p := GenerateRandomPosition(boardSize, exclude, rest);
      var k :| 0 <= k < |rest| && rest[k] == p && forall j :: 0 <= j < k ==> rest[j] in exclude;
      assert draws[k + 1] == p;
      assert forall j :: 0 <= j < k + 1 ==> draws[j] in exclude by {
        forall j | 0 <= j < k + 1 ensures draws[j] in exclude {
          if j > 0 { assert draws[j] == rest[j - 1]; }
        }
      }
      p
  }

  /** A run that terminates exists exactly when the board has a cell off
      `exclude`. */
  lemma TerminatesIffFreeCell(boardSize: int, exclude: seq<Pos>)
    requires boardSize > 0
    ensures (exists draws :: AllCellDraws(boardSize, draws) && Terminates(exclude, draws))
      <==> (exists p :: InSquare(p, boardSize) && p !in exclude)
  {
    if exists p :: InSquare(p, boardSize) && p !in exclude {
      var p :| InSquare(p, boardSize) && p !in exclude;
      assert [p][0] !in exclude;
      assert AllCellDraws(boardSize, [p]) && Terminates(exclude, [p]);
    }
    if exists draws :: AllCellDraws(boardSize, draws) && Terminates(exclude, draws) {
      var draws :| AllCellDraws(boardSize, draws) && Terminates(exclude, draws);
      var i :| 0 <= i < |draws| && draws[i] !in exclude;
      assert CellDraw(boardSize, draws[i]);
    }
  }

  /** checkCollision: off the board, or on any segment, tail included. */
  function CheckCollision(position: Pos, boardSize: int, snake: seq<Pos>): (r: bool)
    ensures r <==> !InSquare(position, boardSize) || position in snake
  {
    if position.x < 0 || position.x >= boardSize || position.y < 0 || position.y >= boardSize then true
    else exists i :: 0 <= i < |snake| && snake[i].x == position.x && snake[i].y == position.y
  }
}

=== FILE: geometry.dfy ===
/**
  Integer-grid geometry shared by every Snake variant of the repository:
  cells, the four headings, their opposites, one step along a heading,
  and the body update every variant performs once a move is accepted.

  The variants spell the headings differently (UP/DOWN/LEFT/RIGHT,
  CIMA/BAIXO/ESQUERDA/DIREITA, or unit vectors); they all denote the
  same four moves, with "up" decreasing y (screen coordinates).
*/
module Geometry {

  /** A board cell. A value: two cells are the same cell exactly when
      their coordinates agree. */
  datatype Pos = Pos(x: int, y: int)

  /** The four headings. */
  datatype Dir = Up | Down | Left | Right

  /** The order in which the source lists the headings: UP, DOWN, LEFT, RIGHT. */
  const AllDirs: seq<Dir> := [Up, Down, Left, Right]

  /** Unit vector of a heading, as in the DIRECTION_MOVES / DIRECOES tables. */
  function Delta(d: Dir): (v: Pos)
    ensures IsUnit(v)
  {
    match d
    case Up => Pos(0, -1)
    case Down => Pos(0, 1)
    case Left => Pos(-1, 0)
    case Right => Pos(1, 0)
  }

  /** A vector of length one along one axis (no diagonals). */
  predicate IsUnit(v: Pos)
  {
    (v.x == 0 && (v.y == 1 || v.y == -1)) || (v.y == 0 && (v.x == 1 || v.x == -1))
  }

  function Add(p: Pos, v: Pos): Pos
  {
    Pos(p.x + v.x, p.y + v.y)
  }

  function Neg(v: Pos): Pos
  {
    Pos(-v.x, -v.y)
  }

  function Abs(n: int): nat
  {
    if n < 0 then -n else n
  }

  function Manhattan(p: Pos, q: Pos): nat
  {
    Abs(p.x - q.x) + Abs(p.y - q.y)
  }

  function Chebyshev(p: Pos, q: Pos): nat
  {
    if Abs(p.x - q.x) < Abs(p.y - q.y) then Abs(p.y - q.y) else Abs(p.x - q.x)
  }

  /** Orthogonal neighbours: one step apart along exactly one axis. */
  predicate Adjacent(p: Pos, q: Pos)
  {
    Manhattan(p, q) == 1
  }

  /** The reverse heading (the OPPOSITE_DIRECTIONS / opposites table):
      it points the other way and is never the heading itself. */
  function Opposite(d: Dir): (r: Dir)
    ensures r != d
  {
    match d
    case Up => Down
    case Down => Up
    case Left => Right
    case Right => Left
  }

  /** The cell one step from `p` along `d`, written as the case table of the
      source's next-head functions; its contract ties it to the vector table. */
  function Move(p: Pos, d: Dir): (q: Pos)
    ensures q == Add(p, Delta(d))
    ensures Adjacent(p, q)
  {
    match d
    case Up => Pos(p.x, p.y - 1)
    case Down => Pos(p.x, p.y + 1)
    case Left => Pos(p.x - 1, p.y)
    case Right => Pos(p.x + 1, p.y)
  }

  /** Coordinate-wise comparison (positionsEqual, igual, checkFoodCollision):
      it holds exactly when the two cells are the same value. */
  function SamePos(a: Pos, b: Pos): (r: bool)
    ensures r <==> a == b
  {
    a.x == b.x && a.y == b.y
  }

  /** Inside the square board [0, n) x [0, n). */
  predicate InSquare(p: Pos, n: int)
  {
    0 <= p.x < n && 0 <= p.y < n
  }

  /** Inside the rectangular board [0, cols) x [0, rows). */
  predicate InRect(p: Pos, cols: int, rows: int)
  {
    0 <= p.x < cols && 0 <= p.y < rows
  }

  /** The values `Math.floor(Math.random() * n)` can take: [0, n) for a
      positive n, and [n, 0] otherwise. */
  predicate CoordDraw(n: int, v: int)
  {
    if n > 0 then 0 <= v < n else n <= v <= 0
  }

  /** A random cell: both coordinates drawn as above. */
  predicate CellDraw(n: int, p: Pos)
  {
    CoordDraw(n, p.x) && CoordDraw(n, p.y)
  }

  predicate AllCellDraws(n: int, draws: seq<Pos>)
  {
    forall i :: 0 <= i < |draws| ==> CellDraw(n, draws[i])
  }

  /** The body update of an accepted move: the new head is prepended and,
      unless the snake grows, the last cell is dropped. Every old segment
      moves back by one index, and the length changes by exactly 0 or 1. */
  function Advance(body: seq<Pos>, head: Pos, grow: bool): (r: seq<Pos>)
    requires |body| > 0
    ensures |r| == if grow then |body| + 1 else |body|
    ensures r[0] == head
    ensures forall i :: 1 <= i < |r| ==> r[i] == body[i - 1]
  {
    var full := [head] + body;
    if grow then full else full[..|full| - 1]
  }

  /** Consecutive segments are orthogonal neighbours. */
  predicate Connected(body: seq<Pos>)
  {
    forall i :: 0 <= i < |body| - 1 ==> Adjacent(body[i], body[i + 1])
  }

  /** No cell is occupied twice. */
  predicate Distinct(body: seq<Pos>)
  {
    forall i, j :: 0 <= i < j < |body| ==> body[i] != body[j]
  }

  /** The body invariant of a live snake: non-empty, connected, no repeats. */
  predicate WellFormed(body: seq<Pos>)
  {
    |body| > 0 && Connected(body) && Distinct(body)
  }

  /** The opposite of the opposite is the heading itself. */
  lemma OppositeInvolution(d: Dir)
    ensures Opposite(Opposite(d)) == d
    ensures Opposite(d) != d
  {
    match d
    case Up =>
    case Down =>
    case Left =>
    case Right =>
  }

  /** The opposite heading is the negated vector. */
  lemma OppositeNegates(d: Dir)
    ensures Delta(Opposite(d)) == Neg(Delta(d))
  {
  }

  /** `b` is the opposite of `a` exactly when `a` is the opposite of `b`. */
  lemma OppositeSymmetric(a: Dir, b: Dir)
    ensures Opposite(a) == b <==> a == Opposite(b)
  {
    match a
    case Up =>
    case Down =>
    case Left =>
    case Right =>
  }

  /** Stepping along `d` and then along its opposite returns to the start. */
  lemma MoveThenBack(p: Pos, d: Dir)
    ensures Move(Move(p, d), Opposite(d)) == p
  {
  }

  /** Different headings lead to different cells. */
  lemma MoveInjective(p: Pos, d: Dir, e: Dir)
    ensures Move(p, d) == Move(p, e) <==> d == e
  {
  }

  /** An accepted move keeps a well-formed body well-formed: the new head
      is adjacent to the old head and (as every variant checks the whole
      old body, tail included) not already on the body. */
  lemma {:induction false} AdvanceKeepsWellFormed(body: seq<Pos>, head: Pos, grow: bool)
    requires WellFormed(body)
    requires Adjacent(head, body[0])
    requires head !in body
    ensures WellFormed(Advance(body, head, grow))
  {
    var r := Advance(body, head, grow);
    forall i | 0 <= i < |r| - 1
      ensures Adjacent(r[i], r[i + 1])
    {
      if i > 0 {
        assert r[i] == body[i - 1] && r[i + 1] == body[i];
      }
    }
    forall i, j | 0 <= i < j < |r|
      ensures r[i] != r[j]
    {
      if i == 0 {
        assert r[j] == body[j - 1];
      } else {
        assert r[i] == body[i - 1] && r[j] == body[j - 1];
      }
    }
  }
}

=== FILE: hooks.dfy ===
/**
  The direction buffer of SnakeGame/src/hooks/useSnakeMovement.ts, a
  two-field state machine: `direction` drives the snake, `nextDirection`
  holds the latest accepted request until the next tick copies it over.
  SnakeGameFinal imports a hook of the same name whose file is not part of
  this model; it is taken to be this one.
*/
module DirectionBuffer {
  import opened Geometry

  datatype Buffer = Buffer(direction: Dir, nextDirection: Dir)

  /** changeDirection: a request that is not the reversal of the current
      heading replaces the buffered one; a reversal changes nothing. The
      current heading is never touched. */
  function ChangeDirection(b: Buffer, newDirection: Dir): (r: Buffer)
    ensures r.direction == b.direction
    ensures newDirection != Opposite(b.direction) ==> r.nextDirection == newDirection
    ensures newDirection == Opposite(b.direction) ==> r == b
  {
    if newDirection != Opposite(b.direction) then b.(nextDirection := newDirection) else b
  }

  /** updateDirection: the buffered heading becomes the current one. */
  function UpdateDirection(b: Buffer): (r: Buffer)
    ensures r.direction == b.nextDirection && r.nextDirection == b.nextDirection
  {
    b.(direction := b.nextDirection)
  }

  /** resetDirection: both fields take the given heading. */
  function ResetDirection(d: Dir): (r: Buffer)
    ensures r.direction == d && r.nextDirection == d
  {
    Buffer(d, d)
  }

  /** The buffered heading never reverses the current one. */
  predicate Valid(b: Buffer)
  {
    b.nextDirection != Opposite(b.direction)
  }

  lemma ResetDirectionValid(d: Dir)
    ensures Valid(ResetDirection(d))
  {
    OppositeInvolution(d);
  }

  lemma ChangeDirectionKeepsValid(b: Buffer, d: Dir)
    requires Valid(b)
    ensures Valid(ChangeDirection(b, d))
  {
  }

  lemma UpdateDirectionKeepsValid(b: Buffer)
    ensures Valid(UpdateDirection(b))
  {
    OppositeInvolution(b.nextDirection);
  }

  /** Copying the buffer twice is copying it once. */
  lemma UpdateDirectionIdempotent(b: Buffer)
    ensures UpdateDirection(UpdateDirection(b)) == UpdateDirection(b)
  {
  }

  /** The requests that arrive between two ticks, oldest first. */
  function ChangeAll(b: Buffer, requests: seq<Dir>): Buffer
    decreases |requests|
  {
    if requests == [] then b
    else ChangeDirection(ChangeAll(b, requests[..|requests| - 1]), requests[|requests| - 1])
  }

  /** Between two ticks the last accepted request wins; when every request
      is a reversal the buffer is unchanged. The guard always compares
      against the same heading, since changeDirection never moves it. */
  lemma {:induction false} LastAcceptedRequestWins(b: Buffer, requests: seq<Dir>)
    ensures ChangeAll(b, requests).direction == b.direction
    ensures (forall i :: 0 <= i < |requests| ==> requests[i] == Opposite(b.direction))
      ==> ChangeAll(b, requests) == b
    ensures forall i :: (0 <= i < |requests| && requests[i] != Opposite(b.direction)
      && (forall j :: i < j < |requests| ==> requests[j] == Opposite(b.direction))
      ==> ChangeAll(b, requests).nextDirection == requests[i])
    decreases |requests|
  {
    if requests != [] {
      var n := |requests| - 1;
      var init := requests[..n];
      LastAcceptedRequestWins(b, init);
      forall i | 0 <= i < |requests| && requests[i] != Opposite(b.direction)
        && (forall j :: i < j < |requests| ==> requests[j] == Opposite(b.direction))
        ensures ChangeAll(b, requests).nextDirection == requests[i]
      {
        if i < n {
          assert init[i] == requests[i];
          assert forall j :: i < j < |init| ==> init[j] == Opposite(b.direction) by {
            forall j | i < j < |init| ensures init[j] == Opposite(b.direction) {
              assert init[j] == requests[j];
            }
          }
        }
      }
      if forall i :: 0 <= i < |requests| ==> requests[i] == Opposite(b.direction) {
        assert forall i :: 0 <= i < |init| ==> init[i] == Opposite(b.direction) by {
          forall i | 0 <= i < |init| ensures init[i] == Opposite(b.direction) {
            assert init[i] == requests[i];
          }
        }
      }
    }
  }
}

/**
  The moveSnake reducer, pauseGame, startGame and the high-score effect of
  the two hook-based games: SnakeGame/src/hooks/useGameLogic.ts (statuses
  PLAYING, PAUSED, GAME_OVER; speed floor 50) and
  SnakeGameFinal/src/hooks/useGameLogic.ts (statuses JOGANDO, PAUSADO,
  FIM_DE_JOGO; speed floor 100). The two reducers differ only in the floor
  and the status names, so one definition takes the floor as a parameter.
  The food drawn by generateRandomPosition is the parameter `newFood`.
*/
module HookGame {
  import opened Geometry
  import opened DirectionBuffer
  import opened GameHelpers

  /** PLAYING / JOGANDO, PAUSED / PAUSADO, GAME_OVER / FIM_DE_JOGO */
  datatype Status = Playing | Paused | GameOver

  datatype Config = Config(boardSize: int, initialSpeed: int, speedIncrement: int)

  datatype GameState = GameState(
    snake: seq<Pos>,
    food: Pos,
    direction: Dir,
    status: Status,
    score: int,
    highScore: int,
    speed: int)

  /** A game is the reducer's state together with the direction buffer. */
  datatype Game = Game(state: GameState, buffer: Buffer)

  /** DEFAULT_CONFIG of SnakeGame/src/utils/constants.ts, and its floor. */
  const EnglishConfig: Config := Config(10, 200, 10)
  const EnglishFloor: int := 50

  /** DEFAULT_CONFIG of SnakeGameFinal/src/utils/constants.ts, and its floor. */
  const PortugueseConfig: Config := Config(10, 300, 5)
  const PortugueseFloor: int := 100

  /** INITIAL_SNAKE and INITIAL_DIRECTION (RIGHT / DIREITA) of both. */
  const InitialSnake: seq<Pos> := [Pos(5, 5)]
  const InitialDirection: Dir := Right

  function Max(a: int, b: int): int
  {
    if a < b then b else a
  }

  /** The moveSnake reducer, with `next` the buffered heading it reads and
      `newFood` the draw used when the food is eaten. */
  function MoveSnake(prev: GameState, cfg: Config, floor: int, next: Dir, newFood: Pos): (r: GameState)
    requires prev.status == Playing ==> |prev.snake| > 0
    // nothing happens unless playing
    ensures prev.status != Playing ==> r == prev
    // a collision (wall, or any segment with the tail) only ends the game
    ensures prev.status == Playing ==>
      (r.status == GameOver <==> !InSquare(Move(prev.snake[0], next), cfg.boardSize)
                                  || Move(prev.snake[0], next) in prev.snake)
    ensures prev.status == Playing && r.status == GameOver ==> r == prev.(status := GameOver)
    ensures r.highScore == prev.highScore
    ensures prev.status == Playing && r.status != GameOver ==>
      && r.status == Playing
      && r.direction == next
      && (|r.snake| == |prev.snake| || |r.snake| == |prev.snake| + 1)
    // a successful move: the head steps along `next`, the rest follows
    ensures prev.status == Playing && r.status != GameOver ==>
      && r.snake[0] == Move(prev.snake[0], next)
      && (forall i :: 1 <= i < |r.snake| ==> r.snake[i] == prev.snake[i - 1])
    // eating grows the snake, scores one point and speeds up to the floor
    ensures prev.status == Playing && r.status != GameOver && r.snake[0] == prev.food ==>
      && |r.snake| == |prev.snake| + 1
      && r.score == prev.score + 1
      && r.speed == Max(prev.speed - cfg.speedIncrement, floor)
      && r.food == newFood
    ensures prev.status == Playing && r.status != GameOver && r.snake[0] != prev.food ==>
      && |r.snake| == |prev.snake|
      && r.score == prev.score && r.speed == prev.speed && r.food == prev.food
  {
    if prev.status != Playing then prev
    else
      var newHead := Move(prev.snake[0], next);
      var hasEaten := SamePos(newHead, prev.food);
      if CheckCollision(newHead, cfg.boardSize, prev.snake) then prev.(status := GameOver)
      else
        var newSnake := Advance(prev.snake, newHead, hasEaten);
        prev.(snake := newSnake,
              food := if hasEaten then newFood else prev.food,
              score := if hasEaten then prev.score + 1 else prev.score,
              speed := if hasEaten then Max(prev.speed - cfg.speedIncrement, floor) else prev.speed,
              direction := next)
  }

  /** One tick: updateDirection, then the reducer with the buffered
      heading. */
  function Tick(g: Game, cfg: Config, floor: int, newFood: Pos): (r: Game)
    requires g.state.status == Playing ==> |g.state.snake| > 0
    ensures r.buffer == UpdateDirection(g.buffer)
    ensures r.state == MoveSnake(g.state, cfg, floor, g.buffer.nextDirection, newFood)
  {
    Game(MoveSnake(g.state, cfg, floor, g.buffer.nextDirection, newFood), UpdateDirection(g.buffer))
  }

  /** A request from the player goes to the buffer only. */
  function Request(g: Game, d: Dir): (r: Game)
    ensures r.state == g.state
    ensures r.buffer == ChangeDirection(g.buffer, d)
  {
    g.(buffer := ChangeDirection(g.buffer, d))
  }

  /** pauseGame: PLAYING becomes PAUSED and every other status, game over
      included, becomes PLAYING. */
  function PauseGame(s: GameState): (r: GameState)
    ensures r.status == Playing <==> s.status != Playing
    ensures r.status != GameOver
    ensures r.(status := s.status) == s
  {
    s.(status := if s.status == Playing then Paused else Playing)
  }

  /** Pausing twice from a live status gives the state back; from game over
      it gives a playing state. */
  lemma PauseGameTwice(s: GameState)
    ensures s.status != GameOver ==> PauseGame(PauseGame(s)) == s
    ensures s.status == GameOver ==> PauseGame(s).status == Playing
  {
  }

  /** startGame, with `storedHighScore` the value read from storage (0
      when absent or unreadable) and `food` the generateRandomPosition draw
      for the initial snake; the buffer is reset to the initial heading. */
  function StartGame(cfg: Config, storedHighScore: int, food: Pos): (r: Game)
    ensures r.state.snake == InitialSnake && r.state.direction == InitialDirection
    ensures r.state.status == Playing && r.state.score == 0
    ensures r.state.speed == cfg.initialSpeed && r.state.highScore == storedHighScore
    ensures r.state.food == food
    ensures r.buffer == ResetDirection(InitialDirection)
  {
    Game(GameState(InitialSnake, food, InitialDirection, Playing, 0, storedHighScore, cfg.initialSpeed),
         ResetDirection(InitialDirection))
  }

  /** The high-score effect: raised to the score when the score exceeds it. */
  function RaiseHighScore(s: GameState): (r: GameState)
    ensures r.highScore >= r.score && r.highScore >= s.highScore
    ensures r.highScore == s.highScore || r.highScore == s.score
    ensures r.(highScore := s.highScore) == s
  {
    if s.score > s.highScore then s.(highScore := s.score) else s
  }

  lemma RaiseHighScoreIdempotent(s: GameState)
    ensures RaiseHighScore(RaiseHighScore(s)) == RaiseHighScore(s)
    ensures RaiseHighScore(s).highScore == Max(s.score, s.highScore)
  {
  }

  /** The invariant of a running game: a well-formed snake on the board,
      speed at or above the floor, and a buffered request that is not a
      reversal. The buffer's heading is not required to equal the state's:
      see GameOverTickCommitsHeading. */
  predicate Valid(g: Game, cfg: Config, floor: int)
  {
    && WellFormed(g.state.snake)
    && (forall p :: p in g.state.snake ==> InSquare(p, cfg.boardSize))
    && g.state.speed >= floor
    && DirectionBuffer.Valid(g.buffer)
  }

  lemma StartGameValid(cfg: Config, floor: int, storedHighScore: int, food: Pos)
    requires cfg.boardSize > 5 && cfg.initialSpeed >= floor
    ensures Valid(StartGame(cfg, storedHighScore, food), cfg, floor)
  {
    ResetDirectionValid(InitialDirection);
  }

  lemma RequestKeepsValid(g: Game, cfg: Config, floor: int, d: Dir)
    requires Valid(g, cfg, floor)
    ensures Valid(Request(g, d), cfg, floor)
  {
    ChangeDirectionKeepsValid(g.buffer, d);
  }

  lemma PauseKeepsValid(g: Game, cfg: Config, floor: int)
    requires Valid(g, cfg, floor)
    ensures Valid(g.(state := PauseGame(g.state)), cfg, floor)
  {
  }

  /** Every tick keeps the invariant; on a successful move the buffered
      request is never a reversal, so the head never runs into the neck. */
  lemma TickKeepsValid(g: Game, cfg: Config, floor: int, newFood: Pos)
    requires Valid(g, cfg, floor)
    ensures Valid(Tick(g, cfg, floor, newFood), cfg, floor)
  {
    var r := Tick(g, cfg, floor, newFood);
    UpdateDirectionKeepsValid(g.buffer);
    if g.state.status == Playing && r.state.status != GameOver {
      var s := g.state;
      var h := Move(s.snake[0], g.buffer.nextDirection);
      AdvanceKeepsWellFormed(s.snake, h, h == s.food);
      forall p | p in r.state.snake
        ensures InSquare(p, cfg.boardSize)
      {
        var i :| 0 <= i < |r.state.snake| && r.state.snake[i] == p;
        if i > 0 {
          assert p == s.snake[i - 1];
        }
      }
    }
  }

  /** The tick that ends the game still commits the buffered heading
      (updateDirection runs first), while the reducer keeps the old
      direction; pauseGame then revives the game with the two apart, and
      the reversal guard of changeDirection compares requests with a
      heading the snake never moved in. */
  lemma GameOverTickCommitsHeading(g: Game, cfg: Config, floor: int, newFood: Pos)
    requires g.state.status == Playing && |g.state.snake| > 0
    requires CheckCollision(Move(g.state.snake[0], g.buffer.nextDirection), cfg.boardSize, g.state.snake)
    ensures var r := Tick(g, cfg, floor, newFood);
      && r.state.status == GameOver
      && r.state.direction == g.state.direction
      && r.buffer.direction == g.buffer.nextDirection
      && PauseGame(r.state).status == Playing
  {
  }

  /** The food drawn after eating lands off the grown snake and on the
      board. */
  lemma EatenFoodLandsOffSnake(prev: GameState, cfg: Config, floor: int, next: Dir, draws: seq<Pos>)
    requires prev.status == Playing && |prev.snake| > 0
    requires Move(prev.snake[0], next) == prev.food
    requires AllCellDraws(cfg.boardSize, draws)
    requires Terminates([prev.food] + prev.snake, draws)
    ensures var r := MoveSnake(prev, cfg, floor, next,
                               GenerateRandomPosition(cfg.boardSize, [prev.food] + prev.snake, draws));
      r.status == Playing ==> r.food !in r.snake && (cfg.boardSize > 0 ==> InSquare(r.food, cfg.boardSize))
  {
    var newFood := GenerateRandomPosition(cfg.boardSize, [prev.food] + prev.snake, draws);
    var r := MoveSnake(prev, cfg, floor, next, newFood);
    if r.status == Playing {
      assert r.snake == [prev.food] + prev.snake;
    }
  }
}

=== FILE: naval.dfy ===
/**
  The board of batalha-naval (src/models/Cell.ts, src/models/Board.ts,
  src/components/Ship.tsx, src/utils/constants.ts and
  src/utils/boardHelpers.ts): a 10 x 10 grid of cells, each knowing its
  own row and column, whether a ship lies on it and whether it was hit.
*/
module NavalBoard {
  /** BOARD_SIZE */
  const BoardSize: int := 10

  datatype Cell = Cell(row: int, col: int, hasShip: bool, hit: bool)

  datatype Orientation = Horizontal | Vertical

  datatype ShipPosition = ShipPosition(row: int, col: int)

  datatype Ship = Ship(
    id: string,
    name: string,
    size: int,
    positions: seq<ShipPosition>,
    hits: int,
    orientation: Orientation)

  datatype Board = Board(grid: seq<seq<Cell>>, ships: seq<Ship>)

  /** createCell: a cell at (row, col) with no ship and no hit. */
  function CreateCell(row: int, col: int): (c: Cell)
    ensures c.row == row && c.col == col && !c.hasShip && !c.hit
  {
    Cell(row, col, false, false)
  }

  /** isInsideBoard */
  function IsInsideBoard(row: int, col: int): (r: bool)
    ensures r <==> 0 <= row < BoardSize && 0 <= col < BoardSize
  {
    row >= 0 && row < BoardSize && col >= 0 && col < BoardSize
  }

  /** The grid is BOARD_SIZE rows of BOARD_SIZE cells. */
  predicate WellShaped(b: Board)
  {
    |b.grid| == BoardSize && forall r :: 0 <= r < |b.grid| ==> |b.grid[r]| == BoardSize
  }

  /** createEmptyBoard: row by row, column by column, fresh cells that know
      their own coordinates; no ships. */
  function CreateEmptyBoard(): (b: Board)
    ensures WellShaped(b) && b.ships == []
    ensures forall r, c :: 0 <= r < BoardSize && 0 <= c < BoardSize ==> b.grid[r][c] == CreateCell(r, c)
  {
    Board(seq(BoardSize, row => seq(BoardSize, col => CreateCell(row, col))), [])
  }

  /** Every cell of an empty board is water that was never shot at, and it
      sits at the indices it names. */
  lemma EmptyBoardIsBlank()
    ensures var b := CreateEmptyBoard();
      forall r, c :: 0 <= r < BoardSize && 0 <= c < BoardSize ==>
        !b.grid[r][c].hasShip && !b.grid[r][c].hit && b.grid[r][c].row == r && b.grid[r][c].col == c
  {
  }
}

/**
  canPlaceShip, placeShip and placeFleetRandomly
  (batalha-naval/src/services/shipPlacement.ts). The source mutates the
  board in place; here each call returns the new board. The id built from
  Date.now() and Math.random() and the random draws of placeFleetRandomly
  are given as `Attempt`s.
*/
module ShipPlacement {
  import opened Opt
  import opened NavalBoard

  /** Row and column of the i-th cell of a ship. */
  function RowOf(startRow: int, i: int, o: Orientation): int
  {
    if o == Horizontal then startRow else startRow + i
  }

  function ColOf(startCol: int, i: int, o: Orientation): int
  {
    if o == Horizontal then startCol + i else startCol
  }

  /** The `size` collinear cells of a ship. */
  function CellsOf(startRow: int, startCol: int, size: int, o: Orientation): (ps: seq<ShipPosition>)
    ensures |ps| == if size < 0 then 0 else size
    ensures forall i :: 0 <= i < |ps| ==> ps[i] == ShipPosition(RowOf(startRow, i, o), ColOf(startCol, i, o))
  {
    seq(if size < 0 then 0 else size, i => ShipPosition(RowOf(startRow, i, o), ColOf(startCol, i, o)))
  }

  /** No in-board cell of the 3 x 3 block around (row, col) holds a ship. */
  predicate ClearAround(b: Board, row: int, col: int)
    requires WellShaped(b)
  {
    forall r, c :: row - 1 <= r <= row + 1 && col - 1 <= c <= col + 1 && IsInsideBoard(r, c)
      ==> !b.grid[r][c].hasShip
  }

  /** Where a ship may go: every cell on the board, and nothing within one
      cell of any of them, diagonals included. */
  predicate Placeable(b: Board, startRow: int, startCol: int, size: int, o: Orientation)
    requires WellShaped(b)
  {
    forall i :: 0 <= i < size ==>
      IsInsideBoard(RowOf(startRow, i, o), ColOf(startCol, i, o))
      && ClearAround(b, RowOf(startRow, i, o), ColOf(startCol, i, o))
  }

  /** canPlaceShip: first every cell against the edges, then the block
      around every cell against the ships already placed. */
  method CanPlaceShip(board: Board, startRow: int, startCol: int, size: int, o: Orientation) returns (ok: bool)
    requires WellShaped(board)
    ensures ok <==> Placeable(board, startRow, startCol, size, o)
  {
    var i := 0;
    while i < size
      invariant 0 <= i && (size >= 0 ==> i <= size)
      invariant forall j :: 0 <= j < i ==> IsInsideBoard(RowOf(startRow, j, o), ColOf(startCol, j, o))
    {
      if !IsInsideBoard(RowOf(startRow, i, o), ColOf(startCol, i, o)) {
        return false;
      }
      i := i + 1;
    }
    var k := 0;
    while k < size
      invariant 0 <= k && (size >= 0 ==> k <= size)
      invariant forall j :: 0 <= j < k ==> ClearAround(board, RowOf(startRow, j, o), ColOf(startCol, j, o))
    {
      var row, col := RowOf(startRow, k, o), ColOf(startCol, k, o);
      var r := row - 1;
      while r <= row + 1
        invariant row - 1 <= r <= row + 2
        invariant forall rr, cc :: (row - 1 <= rr < r && col - 1 <= cc <= col + 1 && IsInsideBoard(rr, cc)
          ==> !board.grid[rr][cc].hasShip)
      {
        var c := col - 1;
        while c <= col + 1
          invariant col - 1 <= c <= col + 2
          invariant forall cc :: col - 1 <= cc < c && IsInsideBoard(r, cc) ==> !board.grid[r][cc].hasShip
        {
          if IsInsideBoard(r, c) && board.grid[r][c].hasShip {
            assert !ClearAround(board, row, col);
            return false;
          }
          c := c + 1;
        }
        r := r + 1;
      }
      k := k + 1;
    }
    return true;
  }

  datatype Placed = Placed(board: Board, ship: Ship)

  /** A cell after the ship cells `ps` are marked. */
  function Mark(cell: Cell, row: int, col: int, ps: seq<ShipPosition>): Cell
  {
    if ShipPosition(row, col) in ps then cell.(hasShip := true) else cell
  }

  /** placeShip: None (null) where canPlaceShip refuses; otherwise exactly
      the ship's cells get `hasShip`, and a ship with those cells and no
      hits is appended to the list. */
  function PlaceShip(board: Board, id: string, name: string, size: int,
                     startRow: int, startCol: int, o: Orientation): (r: Option<Placed>)
    requires WellShaped(board)
    ensures r.None? <==> !Placeable(board, startRow, startCol, size, o)
    ensures r.Some? ==>
      && WellShaped(r.value.board)
      && r.value.ship == Ship(id, name, size, CellsOf(startRow, startCol, size, o), 0, o)
      && r.value.board.ships == board.ships + [r.value.ship]
    // the ship's cells were empty water and now hold a ship; no other
    // cell and no other field changes
    ensures r.Some? ==> forall p :: p in r.value.ship.positions ==>
      && IsInsideBoard(p.row, p.col)
      && !board.grid[p.row][p.col].hasShip
      && r.value.board.grid[p.row][p.col] == board.grid[p.row][p.col].(hasShip := true)
    ensures r.Some? ==> forall row, col :: (0 <= row < BoardSize && 0 <= col < BoardSize
      && ShipPosition(row, col) !in r.value.ship.positions
      ==> r.value.board.grid[row][col] == board.grid[row][col])
  {
    if !Placeable(board, startRow, startCol, size, o) then None
    else
      var ps := CellsOf(startRow, startCol, size, o);
      var grid := seq(BoardSize, row requires 0 <= row < BoardSize =>
                    seq(BoardSize, col requires 0 <= col < BoardSize => Mark(board.grid[row][col], row, col, ps)));
      var ship := Ship(id, name, size, ps, 0, o);
      assert forall p :: p in ps ==> IsInsideBoard(p.row, p.col) && ClearAround(board, p.row, p.col) by {
        forall p | p in ps ensures IsInsideBoard(p.row, p.col) && ClearAround(board, p.row, p.col) {
          var i :| 0 <= i < |ps| && ps[i] == p;
        }
      }
      Some(Placed(Board(grid, board.ships + [ship]), ship))
  }

  /** Two cells touch: equal, side by side or diagonal. */
  predicate Near(p: ShipPosition, q: ShipPosition)
  {
    -1 <= p.row - q.row <= 1 && -1 <= p.col - q.col <= 1
  }

  /** No two ships share or touch a cell. */
  predicate NoTouch(ships: seq<Ship>)
  {
    forall k1, k2, j1, j2 :: 0 <= k1 < k2 < |ships| && 0 <= j1 < |ships[k1].positions| && 0 <= j2 < |ships[k2].positions|
      ==> !Near(ships[k1].positions[j1], ships[k2].positions[j2])
  }

  /** Every marked cell belongs to some ship of the list. */
  predicate MarksOwned(b: Board)
    requires WellShaped(b)
  {
    forall row, col :: 0 <= row < BoardSize && 0 <= col < BoardSize && b.grid[row][col].hasShip ==>
      exists k, j :: (0 <= k < |b.ships| && 0 <= j < |b.ships[k].positions|
        && b.ships[k].positions[j] == ShipPosition(row, col))
  }

  /** The fleet invariant: the marked cells are exactly the ship cells, all
      on the board, and no two ships touch. */
  predicate Consistent(b: Board)
  {
    && WellShaped(b)
    && (forall k, j :: 0 <= k < |b.ships| && 0 <= j < |b.ships[k].positions| ==>
          && IsInsideBoard(b.ships[k].positions[j].row, b.ships[k].positions[j].col)
          && b.grid[b.ships[k].positions[j].row][b.ships[k].positions[j].col].hasShip)
    && MarksOwned(b)
    && NoTouch(b.ships)
  }

  /** A successful placement keeps the fleet invariant: a marked cell of an
      earlier ship within one cell of the new ship would have made
      canPlaceShip refuse. */
  lemma PlaceShipKeepsConsistent(board: Board, id: string, name: string, size: int,
                                 startRow: int, startCol: int, o: Orientation)
    requires Consistent(board)
    ensures var r := PlaceShip(board, id, name, size, startRow, startCol, o);
      r.Some? ==> Consistent(r.value.board)
  {
    var r := PlaceShip(board, id, name, size, startRow, startCol, o);
    if r.Some? {
      var nb := r.value.board;
      var n := |board.ships|;
      var ps := r.value.ship.positions;
      assert nb.ships[n] == r.value.ship;
      forall k, j | 0 <= k < |nb.ships| && 0 <= j < |nb.ships[k].positions|
        ensures IsInsideBoard(nb.ships[k].positions[j].row, nb.ships[k].positions[j].col)
        ensures nb.grid[nb.ships[k].positions[j].row][nb.ships[k].positions[j].col].hasShip
      {
        var p := nb.ships[k].positions[j];
        if k < n {
          assert nb.ships[k] == board.ships[k];
          if p !in ps {
            assert nb.grid[p.row][p.col] == board.grid[p.row][p.col];
          }
        } else {
          assert p in ps;
        }
      }
      PlaceShipKeepsMarksOwned(board, id, name, size, startRow, startCol, o);
      forall k1, k2, j1, j2 | 0 <= k1 < k2 < |nb.ships| && 0 <= j1 < |nb.ships[k1].positions| && 0 <= j2 < |nb.ships[k2].positions|
        ensures !Near(nb.ships[k1].positions[j1], nb.ships[k2].positions[j2])
      {
        assert nb.ships[k1] == board.ships[k1];
        if k2 < n {
          assert nb.ships[k2] == board.ships[k2];
        } else {
          var p := board.ships[k1].positions[j1];
          var q := ps[j2];
          assert q in ps;
          assert IsInsideBoard(p.row, p.col) && board.grid[p.row][p.col].hasShip;
          assert ClearAround(board, q.row, q.col);
        }
      }
    }
  }

  /** A placement marks only the new ship's cells, so every marked cell
      still belongs to a ship. */
  lemma PlaceShipKeepsMarksOwned(board: Board, id: string, name: string, size: int,
                                 startRow: int, startCol: int, o: Orientation)
    requires WellShaped(board) && MarksOwned(board)
    ensures var r := PlaceShip(board, id, name, size, startRow, startCol, o);
      r.Some? ==> MarksOwned(r.value.board)
  {
    var r := PlaceShip(board, id, name, size, startRow, startCol, o);
    if r.Some? {
      var nb := r.value.board;
      var n := |board.ships|;
      var ps := r.value.ship.positions;
      assert nb.ships[n] == r.value.ship;
      forall row, col | 0 <= row < BoardSize && 0 <= col < BoardSize && nb.grid[row][col].hasShip
        ensures exists k, j :: (0 <= k < |nb.ships| && 0 <= j < |nb.ships[k].positions|
          && nb.ships[k].positions[j] == ShipPosition(row, col))
      {
        var q := ShipPosition(row, col);
        if q in ps {
          var j :| 0 <= j < |ps| && ps[j] == q;
          assert nb.ships[n].positions[j] == q;
        } else {
          assert nb.grid[row][col] == board.grid[row][col];
          var k, j :| 0 <= k < |board.ships| && 0 <= j < |board.ships[k].positions|
            && board.ships[k].positions[j] == q;
          assert nb.ships[k] == board.ships[k];
        }
      }
    }
  }

  /** Placing a ship fires no shot, and it keeps the fleet invariant. */
  lemma PlaceShipKeepsInvariants(board: Board, id: string, name: string, size: int,
                                 startRow: int, startCol: int, o: Orientation)
    requires WellShaped(board)
    ensures var r := PlaceShip(board, id, name, size, startRow, startCol, o);
      r.Some? ==> (Unshot(board) ==> Unshot(r.value.board)) && (Consistent(board) ==> Consistent(r.value.board))
  {
    var r := PlaceShip(board, id, name, size, startRow, startCol, o);
    if r.Some? {
      if Consistent(board) {
        PlaceShipKeepsConsistent(board, id, name, size, startRow, startCol, o);
      }
      if Unshot(board) {
        forall row, col | 0 <= row < BoardSize && 0 <= col < BoardSize
          ensures !r.value.board.grid[row][col].hit
        {
          if ShipPosition(row, col) in r.value.ship.positions {
            var p := ShipPosition(row, col);
            assert r.value.board.grid[p.row][p.col] == board.grid[p.row][p.col].(hasShip := true);
          }
        }
      }
    }
  }

  /** A ship of the fleet: its name and size. */
  datatype ShipConfig = ShipConfig(name: string, size: int)

  /** SHIPS_CONFIG: the classic fleet of five. */
  const ShipsConfig: seq<ShipConfig> := [
    ShipConfig("Porta-avi\U{F5}es", 5),
    ShipConfig("Cruzador", 4),
    ShipConfig("Contratorpedeiro", 3),
    ShipConfig("Submarino", 3),
    ShipConfig("Patrulha", 2)]

  /** SHIPS_CONFIG is five ships with distinct names, each of which fits
      on a row of the board. */
  lemma ShipsConfigFleet()
    ensures |ShipsConfig| == 5
    ensures forall k :: 0 <= k < |ShipsConfig| ==> 2 <= ShipsConfig[k].size <= BoardSize
    ensures forall i, j :: 0 <= i < j < |ShipsConfig| ==> ShipsConfig[i].name != ShipsConfig[j].name
  {
  }

  /** The retry bound per ship. */
  const MaxAttempts: int := 100

  /** One attempt's draws: randomFromArray for the orientation, randomInt
      for the start row and column, and the generated id. */
  datatype Attempt = Attempt(orientation: Orientation, row: int, col: int, id: string)

  datatype FleetResult = FleetResult(ok: bool, board: Board)

  /** The clearing pass: no ships, and no cell marked or hit. */
  function Clear(board: Board): (r: Board)
    requires WellShaped(board)
    ensures WellShaped(r) && r.ships == []
    ensures forall row, col :: 0 <= row < BoardSize && 0 <= col < BoardSize ==>
      r.grid[row][col] == board.grid[row][col].(hasShip := false, hit := false)
  {
    Board(seq(BoardSize, row requires 0 <= row < BoardSize =>
            seq(BoardSize, col requires 0 <= col < BoardSize => board.grid[row][col].(hasShip := false, hit := false))),
          [])
  }

  /** No cell of the board has been shot at. */
  predicate Unshot(b: Board)
    requires WellShaped(b)
  {
    forall row, col :: 0 <= row < BoardSize && 0 <= col < BoardSize ==> !b.grid[row][col].hit
  }

  /** The retry loop for one ship, from attempt `i` on. */
  function TryShip(board: Board, cfg: ShipConfig, attempts: seq<Attempt>, i: nat): (r: Option<Placed>)
    requires WellShaped(board) && i <= MaxAttempts <= |attempts|
    ensures r.None? ==> forall j :: i <= j < MaxAttempts ==>
      !Placeable(board, attempts[j].row, attempts[j].col, cfg.size, attempts[j].orientation)
    ensures r.Some? ==>
      && WellShaped(r.value.board)
      && r.value.board.ships == board.ships + [r.value.ship]
      && r.value.ship.name == cfg.name && r.value.ship.size == cfg.size && r.value.ship.hits == 0
      && LaidOut(r.value.ship)
      && (Unshot(board) ==> Unshot(r.value.board))
      && (Consistent(board) ==> Consistent(r.value.board))
    decreases MaxAttempts - i
  {
    if i >= MaxAttempts then None
    else
      var a := attempts[i];
      var placed := PlaceShip(board, a.id, cfg.name, cfg.size, a.row, a.col, a.orientation);
      if placed.Some? then
        PlaceShipKeepsInvariants(board, a.id, cfg.name, cfg.size, a.row, a.col, a.orientation);
        placed
      else
        TryShip(board, cfg, attempts, i + 1)
  }

  /** A successful retry loop is placeShip at the first attempt that
      canPlaceShip accepts, so the ship lies on that attempt's cells. */
  lemma {:induction false} TryShipTakesFirstAccepted(board: Board, cfg: ShipConfig, attempts: seq<Attempt>, i: nat)
    requires WellShaped(board) && i <= MaxAttempts <= |attempts|
    ensures var r := TryShip(board, cfg, attempts, i);
      r.Some? ==> exists j :: PlacedAt(board, cfg, attempts, i, j, r)
    decreases MaxAttempts - i
  {
    if i < MaxAttempts {
      var a := attempts[i];
      var placed := PlaceShip(board, a.id, cfg.name, cfg.size, a.row, a.col, a.orientation);
      var r := TryShip(board, cfg, attempts, i);
      if placed.Some? {
        assert r == placed;
        assert PlacedAt(board, cfg, attempts, i, i, r);
      } else {
        assert r == TryShip(board, cfg, attempts, i + 1);
        TryShipTakesFirstAccepted(board, cfg, attempts, i + 1);
        if r.Some? {
          var j :| PlacedAt(board, cfg, attempts, i + 1, j, r);
          assert PlacedAt(board, cfg, attempts, i, j, r);
        }
      }
    }
  }

  /** `r` is placeShip at attempt j, and attempts i up to j were refused. */
  ghost predicate PlacedAt(board: Board, cfg: ShipConfig, attempts: seq<Attempt>, i: nat, j: int, r: Option<Placed>)
    requires WellShaped(board) && MaxAttempts <= |attempts|
  {
    && i <= j < MaxAttempts
    && (forall m :: i <= m < j ==>
          !Placeable(board, attempts[m].row, attempts[m].col, cfg.size, attempts[m].orientation))
    && r == PlaceShip(board, attempts[j].id, cfg.name, cfg.size,
                      attempts[j].row, attempts[j].col, attempts[j].orientation)
  }

  /** A ship lies on `size` collinear cells along its orientation. */
  ghost predicate LaidOut(s: Ship)
  {
    exists row, col :: s.positions == CellsOf(row, col, s.size, s.orientation)
  }

  /** The ships are the first ones of `configs`, in order, unhit, each
      laid out on the cells its size and orientation give. */
  ghost predicate FollowsConfig(ships: seq<Ship>, configs: seq<ShipConfig>)
  {
    && |ships| <= |configs|
    && forall k :: 0 <= k < |ships| ==>
         && ships[k].name == configs[k].name && ships[k].size == configs[k].size && ships[k].hits == 0
         && LaidOut(ships[k])
  }

  /** Ship n of `configs` finds no accepted attempt among its draws on `b`. */
  predicate FleetStuck(b: Board, configs: seq<ShipConfig>, draws: seq<seq<Attempt>>, n: int)
    requires WellShaped(b)
  {
    && 0 <= n < |configs| && n < |draws| && MaxAttempts <= |draws[n]|
    && forall j :: 0 <= j < MaxAttempts ==>
         !Placeable(b, draws[n][j].row, draws[n][j].col, configs[n].size, draws[n][j].orientation)
  }

  /** The loop over the fleet: the k-th ship uses the k-th list of draws;
      the first ship that fails all its attempts stops the loop. */
  function PlaceAll(board: Board, configs: seq<ShipConfig>, draws: seq<seq<Attempt>>): (r: FleetResult)
    requires WellShaped(board) && |draws| >= |configs|
    requires forall k :: 0 <= k < |configs| ==> |draws[k]| >= MaxAttempts
    ensures WellShaped(r.board)
    ensures |board.ships| <= |r.board.ships|
    ensures r.board.ships[..|board.ships|] == board.ships
    ensures FollowsConfig(r.board.ships[|board.ships|..], configs)
    ensures r.ok <==> |r.board.ships| == |board.ships| + |configs|
    // failure: the next ship of the fleet had every one of its attempts
    // refused on the board as the loop left it
    ensures !r.ok ==> FleetStuck(r.board, configs, draws, |r.board.ships| - |board.ships|)
    ensures Unshot(board) ==> Unshot(r.board)
    ensures Consistent(board) ==> Consistent(r.board)
    decreases |configs|
  {
    if configs == [] then FleetResult(true, board)
    else
      match TryShip(board, configs[0], draws[0], 0)
      case None => FleetResult(false, board)
      case Some(p) =>
        DropFirstDraws(configs, draws);
        var rest := PlaceAll(p.board, configs[1..], draws[1..]);
        PlaceAllCons(board, configs, draws, p, rest);
        rest
  }

  /** The contract of the fleet loop carries over from the rest of the
      fleet to the whole, once the first ship is placed. */
  lemma PlaceAllCons(board: Board, configs: seq<ShipConfig>, draws: seq<seq<Attempt>>, p: Placed, rest: FleetResult)
    requires 0 < |configs| <= |draws|
    requires p.board.ships == board.ships + [p.ship]
    requires p.ship.name == configs[0].name && p.ship.size == configs[0].size && p.ship.hits == 0
    requires LaidOut(p.ship)
    requires WellShaped(rest.board)
    requires |p.board.ships| <= |rest.board.ships| && rest.board.ships[..|p.board.ships|] == p.board.ships
    requires FollowsConfig(rest.board.ships[|p.board.ships|..], configs[1..])
    requires rest.ok <==> |rest.board.ships| == |p.board.ships| + |configs[1..]|
    requires !rest.ok ==> FleetStuck(rest.board, configs[1..], draws[1..], |rest.board.ships| - |p.board.ships|)
    ensures |board.ships| <= |rest.board.ships|
    ensures rest.board.ships[..|board.ships|] == board.ships
    ensures FollowsConfig(rest.board.ships[|board.ships|..], configs)
    ensures rest.ok <==> |rest.board.ships| == |board.ships| + |configs|
    ensures !rest.ok ==> FleetStuck(rest.board, configs, draws, |rest.board.ships| - |board.ships|)
  {
    PlaceAllStep(board.ships, p.ship, rest.board.ships, configs);
    FleetStuckShift(rest.board, configs, draws, |rest.board.ships| - |p.board.ships|);
  }

  /** Ship n of the rest of the fleet is ship n + 1 of the whole fleet. */
  lemma FleetStuckShift(b: Board, configs: seq<ShipConfig>, draws: seq<seq<Attempt>>, n: int)
    requires WellShaped(b) && 0 < |configs| <= |draws|
    ensures FleetStuck(b, configs[1..], draws[1..], n) ==> FleetStuck(b, configs, draws, n + 1)
  {
    if FleetStuck(b, configs[1..], draws[1..], n) {
      assert configs[1..][n] == configs[n + 1] && draws[1..][n] == draws[n + 1];
    }
  }

  lemma DropFirstDraws(configs: seq<ShipConfig>, draws: seq<seq<Attempt>>)
    requires 0 < |configs| <= |draws|
    requires forall k :: 0 <= k < |configs| ==> |draws[k]| >= MaxAttempts
    ensures forall k :: 0 <= k < |configs[1..]| ==> |draws[1..][k]| >= MaxAttempts
  {
    forall k | 0 <= k < |configs[1..]| ensures |draws[1..][k]| >= MaxAttempts {
      assert draws[1..][k] == draws[k + 1];
    }
  }

  /** One round of the fleet loop: the ship placed now, then the ones the
      rest of the loop places. */
  lemma PlaceAllStep(before: seq<Ship>, ship: Ship, after: seq<Ship>, configs: seq<ShipConfig>)
    requires |configs| > 0
    requires ship.name == configs[0].name && ship.size == configs[0].size && ship.hits == 0
    requires LaidOut(ship)
    requires |before| + 1 <= |after| && after[..|before| + 1] == before + [ship]
    requires FollowsConfig(after[|before| + 1..], configs[1..])
    ensures after[..|before|] == before
    ensures FollowsConfig(after[|before|..], configs)
  {
    var n := |before|;
    assert after[..n] == after[..n + 1][..n];
    assert after[n] == after[..n + 1][n];
    var tail := after[n..];
    forall k | 0 <= k < |tail|
      ensures tail[k].name == configs[k].name && tail[k].size == configs[k].size && tail[k].hits == 0
      ensures LaidOut(tail[k])
    {
      if k > 0 {
        assert tail[k] == after[n + 1..][k - 1];
      }
    }
  }

  /** placeFleetRandomly: clear the board, then place SHIPS_CONFIG in
      order with at most 100 attempts per ship. */
  function PlaceFleetRandomly(board: Board, draws: seq<seq<Attempt>>): (r: FleetResult)
    requires WellShaped(board) && |draws| >= |ShipsConfig|
    requires forall k :: 0 <= k < |ShipsConfig| ==> |draws[k]| >= MaxAttempts
    // ships never touch and nothing has been shot at, whatever the outcome
    ensures Consistent(r.board) && Unshot(r.board)
    // success: the five ships of the fleet, in order, none hit yet
    ensures r.ok <==> |r.board.ships| == |ShipsConfig|
    ensures FollowsConfig(r.board.ships, ShipsConfig)
    ensures forall k :: 0 <= k < |r.board.ships| ==> |r.board.ships[k].positions| == ShipsConfig[k].size
    // failure: the first ship missing had all of its 100 attempts refused
    ensures !r.ok ==> FleetStuck(r.board, ShipsConfig, draws, |r.board.ships|)
  {
    var cleared := Clear(board);
    assert Consistent(cleared) && Unshot(cleared);
    var r := PlaceAll(cleared, ShipsConfig, draws);
    assert r.board.ships[0..] == r.board.ships;
    FleetShipSizes(r.board.ships);
    r
  }

  /** Every ship that follows the fleet configuration has as many cells
      as its configured size. */
  lemma FleetShipSizes(ships: seq<Ship>)
    requires FollowsConfig(ships, ShipsConfig)
    ensures forall k :: 0 <= k < |ships| ==> |ships[k].positions| == ShipsConfig[k].size
  {
    forall k | 0 <= k < |ships| ensures |ships[k].positions| == ShipsConfig[k].size {
      LaidOutLength(ships[k]);
    }
  }

  /** A laid-out ship of non-negative size occupies exactly `size` cells. */
  lemma LaidOutLength(s: Ship)
    requires LaidOut(s) && s.size >= 0
    ensures |s.positions| == s.size
  {
    var row, col :| s.positions == CellsOf(row, col, s.size, s.orientation);
  }
}

/**
  shoot and areAllShipsSunk (batalha-naval/src/services/gameLogic.ts).
  That file reads `board.cells` and `cell.shipId`, which the models of
  src/models do not declare, so it gets records of its own here: a cell is
  its hit flag and the id of the ship on it, if any. The result record of
  src/models/ShotResult.ts is not part of this model; it is the outcome,
  the ship id and the position. Functions return fresh values, so the
  input board is never changed.
*/
module Shots {
  import opened Opt

  datatype ShotCell = ShotCell(hit: bool, shipId: Option<string>)

  datatype ShotPosition = ShotPosition(row: int, col: int)

  datatype ShotShip = ShotShip(id: string, size: int, hits: int, cells: seq<ShotPosition>)

  datatype ShotBoard = ShotBoard(cells: seq<seq<ShotCell>>, ships: seq<ShotShip>)

  datatype Outcome = Water | Hit | Sunk

  datatype ShotResult = ShotResult(outcome: Outcome, shipId: Option<string>, position: ShotPosition)

  datatype Shot = Shot(result: ShotResult, updatedBoard: ShotBoard)

  /** `!cell.shipId`: no id, or the empty string. */
  predicate NoShip(c: ShotCell)
  {
    c.shipId.None? || c.shipId.value == ""
  }

  /** The index `find` stops at: the first ship with the id. */
  function FindShip(ships: seq<ShotShip>, id: string): (k: int)
    requires exists k :: 0 <= k < |ships| && ships[k].id == id
    ensures 0 <= k < |ships| && ships[k].id == id
    ensures forall j :: 0 <= j < k ==> ships[j].id != id
  {
    if ships[0].id == id then 0
    else
      var k := FindShip(ships[1..], id);
      assert ships[k + 1] == ships[1..][k];
      k + 1
  }

  /** What shoot needs not to throw: the cell exists and, when it is
      unhit and holds an id, a ship with that id exists. */
  predicate CanShoot(board: ShotBoard, row: int, col: int)
  {
    && 0 <= row < |board.cells| && 0 <= col < |board.cells[row]|
    && (var cell := board.cells[row][col];
        !cell.hit && !NoShip(cell) ==> exists k :: 0 <= k < |board.ships| && board.ships[k].id == cell.shipId.value)
  }

  /** shoot. */
  function Shoot(board: ShotBoard, row: int, col: int): (s: Shot)
    requires CanShoot(board, row, col)
    ensures s.result.position == ShotPosition(row, col)
    // a cell already hit: water again, and the copy equals the input
    ensures board.cells[row][col].hit ==>
      s.result.outcome == Water && s.result.shipId == None && s.updatedBoard == board
    // otherwise exactly the target cell becomes hit
    ensures !board.cells[row][col].hit ==>
      s.updatedBoard.cells == board.cells[row := board.cells[row][col := board.cells[row][col].(hit := true)]]
    ensures !board.cells[row][col].hit && NoShip(board.cells[row][col]) ==>
      s.result.outcome == Water && s.result.shipId == None && s.updatedBoard.ships == board.ships
    // a ship cell: only the first ship with that id takes one more hit
    ensures !board.cells[row][col].hit && !NoShip(board.cells[row][col]) ==>
      var k := FindShip(board.ships, board.cells[row][col].shipId.value);
      && s.updatedBoard.ships == board.ships[k := board.ships[k].(hits := board.ships[k].hits + 1)]
      && s.result.shipId == Some(board.ships[k].id)
      && (s.result.outcome == Sunk <==> board.ships[k].hits + 1 >= board.ships[k].size)
      && s.result.outcome != Water
  {
    var cell := board.cells[row][col];
    var pos := ShotPosition(row, col);
    if cell.hit then Shot(ShotResult(Water, None, pos), board)
    else
      var cells := board.cells[row := board.cells[row][col := cell.(hit := true)]];
      if NoShip(cell) then Shot(ShotResult(Water, None, pos), ShotBoard(cells, board.ships))
      else
        var k := FindShip(board.ships, cell.shipId.value);
        var ship := board.ships[k].(hits := board.ships[k].hits + 1);
        var ships := board.ships[k := ship];
        var outcome := if ship.hits >= ship.size then Sunk else Hit;
        Shot(ShotResult(outcome, Some(ship.id), pos), ShotBoard(cells, ships))
  }

  /** Shooting the same cell again gives water and changes nothing: shoot
      is idempotent per cell. */
  lemma ShootIdempotent(board: ShotBoard, row: int, col: int)
    requires CanShoot(board, row, col)
    ensures CanShoot(Shoot(board, row, col).updatedBoard, row, col)
    ensures var b1 := Shoot(board, row, col).updatedBoard;
      Shoot(b1, row, col).updatedBoard == b1 && Shoot(b1, row, col).result.outcome == Water
  {
  }

  /** The counting of `every`: all ships have at least `size` hits. */
  function EverySunk(ships: seq<ShotShip>): (r: bool)
    ensures r <==> forall k :: 0 <= k < |ships| ==> ships[k].hits >= ships[k].size
  {
    if ships == [] then true
    else ships[0].hits >= ships[0].size && EverySunk(ships[1..])
  }

  /** areAllShipsSunk: there is a ship, and every ship is sunk. */
  function AreAllShipsSunk(board: ShotBoard): (r: bool)
    ensures r <==> |board.ships| > 0 && forall k :: 0 <= k < |board.ships| ==> board.ships[k].hits >= board.ships[k].size
  {
    |board.ships| > 0 && EverySunk(board.ships)
  }

  /** A shot never un-sinks the fleet: once every ship is sunk, shooting
      keeps it so. */
  lemma ShootKeepsAllSunk(board: ShotBoard, row: int, col: int)
    requires CanShoot(board, row, col) && AreAllShipsSunk(board)
    ensures AreAllShipsSunk(Shoot(board, row, col).updatedBoard)
  {
    var s := Shoot(board, row, col);
    var ships := s.updatedBoard.ships;
    forall k | 0 <= k < |ships| ensures ships[k].hits >= ships[k].size {
      assert board.ships[k].hits >= board.ships[k].size;
    }
  }

  /** The Sunk outcome names a ship that has now taken at least `size`
      hits. */
  lemma SunkMeansEnoughHits(board: ShotBoard, row: int, col: int)
    requires CanShoot(board, row, col)
    ensures var s := Shoot(board, row, col);
      s.result.outcome == Sunk ==>
        exists k :: 0 <= k < |s.updatedBoard.ships| && Some(s.updatedBoard.ships[k].id) == s.result.shipId
          && s.updatedBoard.ships[k].hits >= s.updatedBoard.ships[k].size
  {
    var s := Shoot(board, row, col);
    if s.result.outcome == Sunk {
      var k := FindShip(board.ships, board.cells[row][col].shipId.value);
      assert s.updatedBoard.ships[k].hits == board.ships[k].hits + 1;
    }
  }
}

=== FILE: option.dfy ===
/** The optional value used where the source has `T | null`. */
module Opt {
  datatype Option<+T> = None | Some(value: T)
}

=== FILE: pos_text.dfy ===
/**
  positionToString of the two-snake game (`${pos.x},${pos.y}`): the key
  under which the food generator records occupied cells. Integer
  coordinates are printed in decimal, with a leading '-' for negatives.
  Injectivity is what lets a set of these keys stand for a set of cells.
*/
module PosText {
  import opened Geometry

  function DigitChar(d: int): char
    requires 0 <= d < 10
  {
    "0123456789"[d]
  }

  predicate IsDigit(c: char)
  {
    '0' <= c <= '9'
  }

  /** Decimal digits of a natural number, most significant first. */
  function NatToString(n: nat): (s: string)
    ensures |s| > 0
    ensures forall i :: 0 <= i < |s| ==> IsDigit(s[i])
    ensures n < 10 <==> |s| == 1
    decreases n
  {
    if n < 10 then [DigitChar(n)] else NatToString(n / 10) + [DigitChar(n % 10)]
  }

  /** The decimal text of an integer: a '-' sign, then the digits. */
  function IntToString(i: int): (s: string)
    ensures |s| > 0
    ensures ',' !in s
    ensures s[0] == '-' <==> i < 0
  {
    if i < 0 then "-" + NatToString(-i) else NatToString(i)
  }

  /** positionToString (SnakeGame/src/game/utils.ts): the key has exactly
      one comma, right after the text of x, and starts with '-' exactly
      when x is negative. */
  function PositionToString(p: Pos): (s: string)
    ensures |IntToString(p.x)| < |s| && s[|IntToString(p.x)|] == ','
    ensures forall j :: 0 <= j < |s| && j != |IntToString(p.x)| ==> s[j] != ','
    ensures s[0] == '-' <==> p.x < 0
  {
    IntToString(p.x) + "," + IntToString(p.y)
  }

  lemma DigitCharInjective(a: int, b: int)
    requires 0 <= a < 10 && 0 <= b < 10
    ensures DigitChar(a) == DigitChar(b) <==> a == b
  {
  }

  /** Different numbers have different decimal digits. */
  lemma {:induction false} NatToStringInjective(a: nat, b: nat)
    ensures NatToString(a) == NatToString(b) <==> a == b
    decreases a
  {
    if NatToString(a) == NatToString(b) {
      var sa, sb := NatToString(a), NatToString(b);
      if a < 10 && b < 10 {
        DigitCharInjective(a, b);
      } else if a >= 10 && b >= 10 {
        var pa, pb := NatToString(a / 10), NatToString(b / 10);
        assert sa == pa + [DigitChar(a % 10)];
        assert sb == pb + [DigitChar(b % 10)];
        assert sa[|sa| - 1] == DigitChar(a % 10) && sb[|sb| - 1] == DigitChar(b % 10);
        DigitCharInjective(a % 10, b % 10);
        assert pa == sa[..|sa| - 1] == sb[..|sb| - 1] == pb;
        NatToStringInjective(a / 10, b / 10);
      }
    }
  }

  /** Different integers have different decimal texts. */
  lemma IntToStringInjective(a: int, b: int)
    ensures IntToString(a) == IntToString(b) <==> a == b
  {
    if IntToString(a) == IntToString(b) {
      if a < 0 && b < 0 {
        assert NatToString(-a) == IntToString(a)[1..] == IntToString(b)[1..] == NatToString(-b);
        NatToStringInjective(-a, -b);
      } else if a >= 0 && b >= 0 {
        NatToStringInjective(a, b);
      }
    }
  }

  /** The first ',' of a position key sits right after the x text. */
  lemma CommaSplit(a: string, b: string, c: string, d: string)
    requires ',' !in a && ',' !in c
    requires a + [','] + b == c + [','] + d
    ensures a == c && b == d
  {
    var s := a + [','] + b;
    assert s[|a|] == ',' && s[|c|] == ',';
    if |a| < |c| {
      assert false;
    } else if |c| < |a| {
      assert false;
    }
    assert a == s[..|a|] == c;
    assert b == s[|a| + 1..] == d;
  }

  /** positionToString is injective on integer positions. */
  lemma PositionToStringInjective(p: Pos, q: Pos)
    ensures PositionToString(p) == PositionToString(q) <==> p == q
  {
    if PositionToString(p) == PositionToString(q) {
      CommaSplit(IntToString(p.x), IntToString(p.y), IntToString(q.x), IntToString(q.y));
      IntToStringInjective(p.x, q.x);
      IntToStringInjective(p.y, q.y);
    }
  }
}

=== FILE: pure_engine.dfy ===
/**
  The pure engine of the `snake-game` app (src/logic/gameEngine.ts with
  the state record of src/logic/gameTypes.ts): a square board, one snake,
  one food cell, and a game-over flag that, once set, freezes the state.
*/
module PureEngine {
  import opened Geometry

  datatype GameState = GameState(
    snake: seq<Pos>,
    direction: Dir,
    food: Pos,
    score: int,
    best: int,
    boardSize: int,
    isGameOver: bool)

  function Max(a: int, b: int): int
  {
    if a < b then b else a
  }

  /** initGame: a one-cell snake at (2,2) heading right, score 0. `food` is
      the draw of randomPosition; nothing keeps it off the snake. */
  function InitGame(boardSize: int, best: int, food: Pos): (s: GameState)
    ensures WellFormed(s.snake) && |s.snake| == 1 && s.snake[0] == Pos(2, 2)
    ensures s.direction == Right && s.score == 0 && !s.isGameOver
    ensures s.best == best && s.boardSize == boardSize && s.food == food
    ensures boardSize > 2 ==> InSquare(s.snake[0], boardSize)
  {
    GameState([Pos(2, 2)], Right, food, 0, best, boardSize, false)
  }

  /** The initial food may land on the snake: (2,2) is a possible draw. */
  lemma InitFoodMayHitSnake(boardSize: int, best: int)
    requires boardSize > 2
    ensures CellDraw(boardSize, Pos(2, 2))
    ensures InitGame(boardSize, best, Pos(2, 2)).food in InitGame(boardSize, best, Pos(2, 2)).snake
  {
  }

  /** nextDirection: a direct reversal is refused (the previous heading
      is kept); every other request is taken. */
  function NextDirection(prev: Dir, next: Dir): (r: Dir)
    ensures next == Opposite(prev) ==> r == prev
    ensures next != Opposite(prev) ==> r == next
    ensures r != Opposite(prev)
  {
    if (prev == Up && next == Down) || (prev == Down && next == Up)
      || (prev == Left && next == Right) || (prev == Right && next == Left)
    then prev
    else next
  }

  /** Where the head goes this tick. */
  function NewHead(s: GameState): Pos
    requires |s.snake| > 0
  {
    Move(s.snake[0], s.direction)
  }

  /** The tick ends the game: wall first, then the whole body, tail included. */
  predicate Collides(s: GameState)
    requires |s.snake| > 0
  {
    var h := NewHead(s);
    h.x < 0 || h.x >= s.boardSize || h.y < 0 || h.y >= s.boardSize || h in s.snake
  }

  /** updateGame. `newFood` is the randomPosition draw used when the food
      is eaten. */
  function UpdateGame(s: GameState, newFood: Pos): (r: GameState)
    requires s.isGameOver || |s.snake| > 0
    // game over is absorbing
    ensures s.isGameOver ==> r == s
    // a collision only raises the flag: snake, score, food, best untouched
    ensures !s.isGameOver && Collides(s) ==> r == s.(isGameOver := true)
    ensures !s.isGameOver ==> (r.isGameOver <==> Collides(s))
    // the length changes by exactly 0 or 1
    ensures !s.isGameOver && !r.isGameOver ==>
      |r.snake| == |s.snake| || |r.snake| == |s.snake| + 1
    // a successful tick: the head steps once along the heading onto a free,
    // in-bounds cell, and the rest of the body follows
    ensures !s.isGameOver && !r.isGameOver ==>
      && r.snake[0] == Move(s.snake[0], s.direction)
      && Adjacent(r.snake[0], s.snake[0])
      && InSquare(r.snake[0], s.boardSize)
      && r.snake[0] !in s.snake
      && (forall i :: 1 <= i < |r.snake| ==> r.snake[i] == s.snake[i - 1])
    // eating: +1 cell and +1 point and a fresh food; otherwise neither
    ensures !s.isGameOver && !r.isGameOver && r.snake[0] == s.food ==>
      |r.snake| == |s.snake| + 1 && r.score == s.score + 1 && r.food == newFood
    ensures !s.isGameOver && !r.isGameOver && r.snake[0] != s.food ==>
      |r.snake| == |s.snake| && r.score == s.score && r.food == s.food
    // best is raised to the score and never lowered
    ensures !r.isGameOver ==> r.best == Max(r.score, s.best)
    ensures r.best >= s.best
    ensures r.direction == s.direction && r.boardSize == s.boardSize
  {
    if s.isGameOver then s
    else
      var newHead := NewHead(s);
      if newHead.x < 0 || newHead.x >= s.boardSize || newHead.y < 0 || newHead.y >= s.boardSize then
        s.(isGameOver := true)
      else if exists p :: p in s.snake && SamePos(p, newHead) then
        s.(isGameOver := true)
      else
        var ate := SamePos(newHead, s.food);
        var score := if ate then s.score + 1 else s.score;
        s.(snake := Advance(s.snake, newHead, ate),
           food := if ate then newFood else s.food,
           score := score,
           best := Max(score, s.best))
  }

  /** The invariant of every reachable live state: a well-formed snake on
      a non-empty board, food that randomPosition can draw (so on the
      board), and best at least the score. */
  predicate Valid(s: GameState)
  {
    && s.boardSize > 0
    && WellFormed(s.snake)
    && (forall p :: p in s.snake ==> InSquare(p, s.boardSize))
    && CellDraw(s.boardSize, s.food)
    && s.best >= s.score
  }

  lemma InitGameValid(boardSize: int, best: int, food: Pos)
    requires boardSize > 2 && best >= 0 && CellDraw(boardSize, food)
    ensures Valid(InitGame(boardSize, best, food))
  {
  }

  /** Every tick keeps the invariant, with the food drawn by randomPosition. */
  lemma UpdateGameKeepsValid(s: GameState, newFood: Pos)
    requires Valid(s) && CellDraw(s.boardSize, newFood)
    ensures Valid(UpdateGame(s, newFood))
  {
    var r := UpdateGame(s, newFood);
    if !s.isGameOver && !r.isGameOver {
      var h := NewHead(s);
      AdvanceKeepsWellFormed(s.snake, h, h == s.food);
      forall p | p in r.snake
        ensures InSquare(p, s.boardSize)
      {
        var i :| 0 <= i < |r.snake| && r.snake[i] == p;
        if i > 0 {
          assert p == s.snake[i - 1];
        }
      }
    }
  }

  /** A one-cell snake that faces a wall ends the game in one tick. */
  lemma WallEndsShortSnake(s: GameState, newFood: Pos)
    requires !s.isGameOver && |s.snake| == 1
    requires !InSquare(Move(s.snake[0], s.direction), s.boardSize)
    ensures UpdateGame(s, newFood) == s.(isGameOver := true)
  {
  }
}

=== FILE: rival_ai.dfy ===
/**
  The greedy rival of the two-snake game (SnakeGame/src/game/aiController.ts).
  Each tick it scores the three headings that are not a reversal: a
  heading into a wall or into its own body (head excluded) scores -1000,
  any other scores minus its Manhattan distance to the food plus twice the
  number of free cells around the new head. The scores are sorted from
  best to worst by a stable sort (Array.prototype.sort is required to be
  stable since ECMAScript 2019, section 22.1.3.27 of ECMA-262 10th
  edition); the first entry wins if it scores above -1000, otherwise the
  rival keeps its heading.
*/
module RivalAI {
  import opened Geometry
  import opened Snakes
  import opened Collision

  /** The score of a heading into a wall or the body. */
  const Unsafe: int := -1000

  // ---------------------------------------------------------------------
  // Free space around a cell

  /** A free cell: on the board and off the whole body. */
  predicate FreeCell(p: Pos, snake: Snake, gridSize: int)
  {
    InSquare(p, gridSize) && p !in snake.body
  }

  /** The headings among `ds` that lead from `pos` to a free cell. */
  function FreeDirs(pos: Pos, snake: Snake, gridSize: int, ds: seq<Dir>): set<Dir>
  {
    set d | d in ds && FreeCell(Move(pos, d), snake, gridSize)
  }

  /** The counting loop of calculateFreeSpace over the headings `ds`. */
  function CountFree(pos: Pos, snake: Snake, gridSize: int, ds: seq<Dir>): (n: nat)
    ensures n <= |ds|
  {
    if ds == [] then 0
    else
      var checkPos := Move(pos, ds[0]);
      (if !CheckWallCollision(checkPos, gridSize) && !CheckSelfCollision(checkPos, snake.body) then 1 else 0)
        + CountFree(pos, snake, gridSize, ds[1..])
  }

  predicate NoRepeats(ds: seq<Dir>)
  {
    forall i, j :: 0 <= i < j < |ds| ==> ds[i] != ds[j]
  }

  /** The loop counts each free heading once. */
  lemma {:induction false} CountFreeIsCardinality(pos: Pos, snake: Snake, gridSize: int, ds: seq<Dir>)
    requires NoRepeats(ds)
    ensures CountFree(pos, snake, gridSize, ds) == |FreeDirs(pos, snake, gridSize, ds)|
    decreases |ds|
  {
    if ds != [] {
      NoRepeatsTail(ds);
      CountFreeIsCardinality(pos, snake, gridSize, ds[1..]);
      FreeDirsSplit(pos, snake, gridSize, ds);
    }
  }

  lemma NoRepeatsTail(ds: seq<Dir>)
    requires ds != [] && NoRepeats(ds)
    ensures NoRepeats(ds[1..]) && ds[0] !in ds[1..]
  {
    var rest := ds[1..];
    forall i, j | 0 <= i < j < |rest| ensures rest[i] != rest[j] {
      assert rest[i] == ds[i + 1] && rest[j] == ds[j + 1];
    }
    forall j | 0 <= j < |rest| ensures rest[j] != ds[0] {
      assert rest[j] == ds[j + 1];
    }
  }

  /** The free headings of `ds` are those of its tail, plus its first one
      when that one is free. */
  lemma FreeDirsSplit(pos: Pos, snake: Snake, gridSize: int, ds: seq<Dir>)
    requires ds != [] && ds[0] !in ds[1..]
    ensures |FreeDirs(pos, snake, gridSize, ds)|
      == (if FreeCell(Move(pos, ds[0]), snake, gridSize) then 1 else 0) + |FreeDirs(pos, snake, gridSize, ds[1..])|
  {
    var rest := ds[1..];
    var head := if FreeCell(Move(pos, ds[0]), snake, gridSize) then {ds[0]} else {};
    assert FreeDirs(pos, snake, gridSize, ds) == head + FreeDirs(pos, snake, gridSize, rest) by {
      assert forall d :: d in ds <==> d == ds[0] || d in rest;
    }
    assert head !! FreeDirs(pos, snake, gridSize, rest);
  }

  /** calculateFreeSpace: twice the number of free neighbours, so one of
      0, 2, 4, 6, 8. */
  function CalculateFreeSpace(pos: Pos, snake: Snake, gridSize: int): (r: int)
    ensures r == 2 * |FreeDirs(pos, snake, gridSize, AllDirs)|
    ensures r % 2 == 0 && 0 <= r <= 8
  {
    CountFreeIsCardinality(pos, snake, gridSize, AllDirs);
    CountFree(pos, snake, gridSize, AllDirs) * 2
  }

  // ---------------------------------------------------------------------
  // Candidates and their scores

  function Without(ds: seq<Dir>, e: Dir): (r: seq<Dir>)
    ensures forall d :: d in r <==> d in ds && d != e
    ensures |r| <= |ds|
  {
    if ds == [] then []
    else if ds[0] != e then [ds[0]] + Without(ds[1..], e)
    else Without(ds[1..], e)
  }

  /** The headings tried: the four, in the order UP, DOWN, LEFT, RIGHT,
      minus the reversal of the current heading. */
  function Candidates(current: Dir): (r: seq<Dir>)
    ensures |r| == 3
    ensures forall d :: d in r <==> d != Opposite(current)
    ensures NoRepeats(r)
  {
    Without(AllDirs, Opposite(current))
  }

  /** A heading is safe when the next cell is on the board and off the
      body behind the head. */
  predicate Safe(snake: Snake, gridSize: int, d: Dir)
    requires |snake.body| > 0
  {
    var next := Move(snake.body[0], d);
    InSquare(next, gridSize) && next !in snake.body[1..]
  }

  /** The score of one candidate heading. */
  function ScoreOf(snake: Snake, food: Pos, gridSize: int, d: Dir): (score: int)
    requires |snake.body| > 0
    ensures !Safe(snake, gridSize, d) ==> score == Unsafe
    ensures Safe(snake, gridSize, d) ==>
      score == CalculateFreeSpace(Move(snake.body[0], d), snake, gridSize)
        - Manhattan(Move(snake.body[0], d), food)
  {
    var nextPos := Move(snake.body[0], d);
    if CheckWallCollision(nextPos, gridSize) then Unsafe
    else if CheckSelfCollision(nextPos, snake.body[1..]) then Unsafe
    else
      var dist := Abs(nextPos.x - food.x) + Abs(nextPos.y - food.y);
      -dist + CalculateFreeSpace(nextPos, snake, gridSize)
  }

  datatype Scored = Scored(dir: Dir, score: int)

  function ScoreAll(snake: Snake, food: Pos, gridSize: int, ds: seq<Dir>): (r: seq<Scored>)
    requires |snake.body| > 0
    ensures |r| == |ds|
    ensures forall i :: 0 <= i < |ds| ==> r[i] == Scored(ds[i], ScoreOf(snake, food, gridSize, ds[i]))
  {
    if ds == [] then []
    else [Scored(ds[0], ScoreOf(snake, food, gridSize, ds[0]))] + ScoreAll(snake, food, gridSize, ds[1..])
  }

  // ---------------------------------------------------------------------
  // The stable sort, best score first

  predicate SortedDesc(s: seq<Scored>)
  {
    forall i, j :: 0 <= i < j < |s| ==> s[i].score >= s[j].score
  }

  /** Insert `x` after every entry that scores at least as much: later
      entries never overtake earlier ones of equal score. */
  function Insert(x: Scored, s: seq<Scored>): (r: seq<Scored>)
    requires SortedDesc(s)
    ensures |r| == |s| + 1
    ensures multiset(r) == multiset(s) + multiset{x}
    ensures SortedDesc(r)
    ensures r[0] == if s != [] && s[0].score >= x.score then s[0] else x
  {
    if s == [] then [x]
    else if s[0].score >= x.score then
      var tail := Insert(x, s[1..]);
      assert s == [s[0]] + s[1..];
      TopAboveTail(s[0], s[1..], x, tail);
      ConsSorted(s[0], tail);
      [s[0]] + tail
    else
      ConsSorted(x, s);
      [x] + s
  }

  /** Prepending an entry that scores at least as much as every entry
      keeps a sequence sorted. */
  lemma ConsSorted(h: Scored, t: seq<Scored>)
    requires SortedDesc(t)
    requires forall e :: e in t ==> e.score <= h.score
    ensures SortedDesc([h] + t)
  {
    var r := [h] + t;
    forall i, j | 0 <= i < j < |r| ensures r[i].score >= r[j].score {
      assert r[j] == t[j - 1];
      if i > 0 { assert r[i] == t[i - 1]; }
    }
  }

  /** The head of a sorted `[h] + rest` scores at least as much as every
      entry of a permutation of `rest` with `x` added, when it beats `x`. */
  lemma TopAboveTail(h: Scored, rest: seq<Scored>, x: Scored, tail: seq<Scored>)
    requires SortedDesc([h] + rest) && h.score >= x.score
    requires multiset(tail) == multiset(rest) + multiset{x}
    ensures forall e :: e in tail ==> e.score <= h.score
  {
    forall e | e in tail ensures e.score <= h.score {
      assert e in multiset(rest) + multiset{x};
      if e != x {
        assert e in multiset(rest);
        var j :| 0 <= j < |rest| && rest[j] == e;
        var all := [h] + rest;
        assert all[0] == h && all[j + 1] == e;
        assert all[0].score >= all[j + 1].score;
      }
    }
  }

  /** A stable sort from the highest score to the lowest. */
  function SortDesc(xs: seq<Scored>): (r: seq<Scored>)
    ensures multiset(r) == multiset(xs)
    ensures SortedDesc(r)
    ensures |r| == |xs|
  {
    if xs == [] then []
    else
      var init, last := xs[..|xs| - 1], xs[|xs| - 1];
      assert xs == init + [last];
      Insert(last, SortDesc(init))
  }

  /** `i` is the first entry of maximum score. */
  predicate IsFirstMax(xs: seq<Scored>, i: int)
  {
    && 0 <= i < |xs|
    && (forall j :: 0 <= j < |xs| ==> xs[j].score <= xs[i].score)
    && (forall j :: 0 <= j < i ==> xs[j].score < xs[i].score)
  }

  /** The sort puts the first entry of maximum score at the front. */
  lemma {:induction false} SortHeadIsFirstMax(xs: seq<Scored>)
    requires |xs| > 0
    ensures exists i :: IsFirstMax(xs, i) && SortDesc(xs)[0] == xs[i]
    decreases |xs|
  {
    var n := |xs| - 1;
    if n == 0 {
      assert IsFirstMax(xs, 0);
    } else {
      var init := xs[..n];
      SortHeadIsFirstMax(init);
      var i :| IsFirstMax(init, i) && SortDesc(init)[0] == init[i];
      var sorted := SortDesc(init);
      assert SortDesc(xs) == Insert(xs[n], sorted);
      assert xs[i] == init[i];
      if init[i].score >= xs[n].score {
        LastNotAboveFirstMax(xs, i);
      } else {
        LastAboveAll(xs, i);
      }
    }
  }

  /** Adding an entry that does not beat the first maximum keeps it. */
  lemma LastNotAboveFirstMax(xs: seq<Scored>, i: int)
    requires |xs| > 1 && IsFirstMax(xs[..|xs| - 1], i)
    requires xs[|xs| - 1].score <= xs[i].score
    ensures IsFirstMax(xs, i)
  {
    var init := xs[..|xs| - 1];
    forall j | 0 <= j < |xs| ensures xs[j].score <= xs[i].score {
      if j < |init| { assert xs[j] == init[j]; }
    }
    forall j | 0 <= j < i ensures xs[j].score < xs[i].score {
      assert xs[j] == init[j];
    }
  }

  /** An added entry that beats the maximum so far is the first maximum. */
  lemma LastAboveAll(xs: seq<Scored>, i: int)
    requires |xs| > 1 && IsFirstMax(xs[..|xs| - 1], i)
    requires xs[|xs| - 1].score > xs[i].score
    ensures IsFirstMax(xs, |xs| - 1)
  {
    var init := xs[..|xs| - 1];
    forall j | 0 <= j < |xs| ensures xs[j].score <= xs[|xs| - 1].score {
      if j < |init| { assert xs[j] == init[j]; }
    }
  }

  // ---------------------------------------------------------------------
  // The decision

  /** The best entry of the sorted scores: a candidate of maximum score,
      and the first such in the order the candidates were listed. */
  lemma SortedHeadIsBestCandidate(snake: Snake, food: Pos, gridSize: int, cands: seq<Dir>)
    requires |snake.body| > 0 && |cands| > 0 && NoRepeats(cands)
    ensures var h := SortDesc(ScoreAll(snake, food, gridSize, cands))[0];
      && h.dir in cands
      && h.score == ScoreOf(snake, food, gridSize, h.dir)
      && (forall d :: d in cands ==> ScoreOf(snake, food, gridSize, d) <= h.score)
      && (forall i, j :: 0 <= i < j < |cands| && cands[j] == h.dir ==>
            ScoreOf(snake, food, gridSize, cands[i]) < h.score)
  {
    var scored := ScoreAll(snake, food, gridSize, cands);
    SortHeadIsFirstMax(scored);
    var k :| IsFirstMax(scored, k) && SortDesc(scored)[0] == scored[k];
    var h := scored[k];
    forall d | d in cands ensures ScoreOf(snake, food, gridSize, d) <= h.score {
      var j :| 0 <= j < |cands| && cands[j] == d;
      assert scored[j].score == ScoreOf(snake, food, gridSize, d);
    }
    FirstMaxComesFirst(scored, cands, k);
  }

  /** Among labelled entries with distinct labels, every entry listed
      before the first maximum scores strictly less. */
  lemma FirstMaxComesFirst(scored: seq<Scored>, cands: seq<Dir>, k: int)
    requires |scored| == |cands| && NoRepeats(cands)
    requires forall i :: 0 <= i < |cands| ==> scored[i].dir == cands[i]
    requires IsFirstMax(scored, k)
    ensures forall i, j :: 0 <= i < j < |cands| && cands[j] == scored[k].dir ==>
      scored[i].score < scored[k].score
  {
  }

  /** getNextDirection. */
  function GetNextDirection(snake: Snake, food: Pos, gridSize: int): (r: Dir)
    requires |snake.body| > 0
    // never a reversal
    ensures r != Opposite(snake.direction)
    // nothing scores above -1000: keep the heading
    ensures (forall d :: d in Candidates(snake.direction) ==> ScoreOf(snake, food, gridSize, d) <= Unsafe)
      ==> r == snake.direction
    // otherwise: a safe candidate of maximum score, the first such in the
    // order UP, DOWN, LEFT, RIGHT
    ensures (exists d :: d in Candidates(snake.direction) && ScoreOf(snake, food, gridSize, d) > Unsafe) ==>
      && r in Candidates(snake.direction)
      && Safe(snake, gridSize, r)
      && (forall d :: d in Candidates(snake.direction) ==>
            ScoreOf(snake, food, gridSize, d) <= ScoreOf(snake, food, gridSize, r))
      && (forall i, j :: 0 <= i < j < 3 && Candidates(snake.direction)[j] == r ==>
            ScoreOf(snake, food, gridSize, Candidates(snake.direction)[i]) < ScoreOf(snake, food, gridSize, r))
  {
    var cands := Candidates(snake.direction);
    var sorted := SortDesc(ScoreAll(snake, food, gridSize, cands));
    SortedHeadIsBestCandidate(snake, food, gridSize, cands);
    OppositeInvolution(snake.direction);
    if sorted[0].score > Unsafe then sorted[0].dir else snake.direction
  }

  /** When every candidate is unsafe the rival keeps going straight on. */
  lemma AllUnsafeKeepsHeading(snake: Snake, food: Pos, gridSize: int)
    requires |snake.body| > 0
    requires forall d :: d in Candidates(snake.direction) ==> !Safe(snake, gridSize, d)
    ensures GetNextDirection(snake, food, gridSize) == snake.direction
  {
  }
}

=== FILE: snake_component.dfy ===
/**
  The self-contained game of the `snake-game` app's main component
  (src/components/SnakeGame.tsx): a `cols` x `rows` board, a one-slot
  pending direction request, a tick interval that shrinks on every meal
  down to 80, and an optional rival snake (switched off in the source by
  the constant `enemyActive = false`, kept here as a parameter).

  The component keeps its state in React state plus refs; here it is one
  explicit record that each operation maps to the next.
*/
module SnakeComponent {
  import opened Geometry
  import opened Opt

  /** Initial and minimum tick interval (ms), and the cut per meal. */
  const InitialSpeed: int := 350
  const MinSpeed: int := 80
  const SpeedCut: int := 18

  datatype State = State(
    snake: seq<Pos>,
    direction: Dir,
    requested: Option<Dir>,   // requestedDirectionRef
    food: Pos,
    score: int,
    speed: int,
    running: bool)

  /** The result of one tick; `gameOver` is the endGame call. */
  datatype Tick = Tick(state: State, gameOver: bool)

  // ---------------------------------------------------------------------
  // Food placement

  /** Cell key used by the occupied set: y * cols + x. */
  function Index(cols: int, p: Pos): int
  {
    p.y * cols + p.x
  }

  function Occupied(cols: int, snake: seq<Pos>): set<int>
  {
    set p | p in snake :: Index(cols, p)
  }

  predicate Free(cols: int, snake: seq<Pos>, q: Pos)
  {
    Index(cols, q) !in Occupied(cols, snake)
  }

  /** The number of random draws before the linear fallback. */
  function MaxAttempts(cols: int, rows: int): int
  {
    cols * rows * 2
  }

  /** Row-major order of the fallback scan. */
  predicate ScanBefore(p: Pos, q: Pos)
  {
    p.y < q.y || (p.y == q.y && p.x <= q.x)
  }

  /** randomFoodPosition. `draws` are the successive randInt pairs; any
      sequence of in-range pairs is a possible run. It takes the first
      free draw among the first 2*cols*rows, else the first free cell in
      row-major order, else (0,0). */
  method RandomFoodPosition(cols: int, rows: int, snake: seq<Pos>, draws: seq<Pos>) returns (p: Pos)
    requires cols >= 1 && rows >= 1
    requires |draws| >= MaxAttempts(cols, rows)
    requires forall i :: 0 <= i < |draws| ==> InRect(draws[i], cols, rows)
    // total: whenever a cell is free, the result is a free cell of the board
    ensures (exists q :: InRect(q, cols, rows) && Free(cols, snake, q)) ==>
      InRect(p, cols, rows) && Free(cols, snake, p)
    // (0,0) from the last branch only when every cell is taken
    ensures (forall q :: InRect(q, cols, rows) ==> !Free(cols, snake, q)) ==> p == Pos(0, 0)
    // rejection sampling: the first free draw wins
    ensures forall k :: (0 <= k < MaxAttempts(cols, rows) && Free(cols, snake, draws[k])
      && (forall j :: 0 <= j < k ==> !Free(cols, snake, draws[j]))) ==> p == draws[k]
    // after the draws, the linear scan finds the first free cell
    ensures ((forall k :: 0 <= k < MaxAttempts(cols, rows) ==> !Free(cols, snake, draws[k]))
      && InRect(p, cols, rows) && Free(cols, snake, p)) ==>
      forall q :: InRect(q, cols, rows) && Free(cols, snake, q) ==> ScanBefore(p, q)
  {
    var maxAttempts := MaxAttempts(cols, rows);
    var i := 0;
    while i < maxAttempts
      invariant 0 <= i <= maxAttempts
      invariant forall k :: 0 <= k < i ==> !Free(cols, snake, draws[k])
    {
      var q := draws[i];
      if Free(cols, snake, q) {
        return q;
      }
      i := i + 1;
    }
    var y := 0;
    while y < rows
      invariant 0 <= y <= rows
      invariant forall q :: InRect(q, cols, rows) && q.y < y ==> !Free(cols, snake, q)
    {
      var x := 0;
      while x < cols
        invariant 0 <= x <= cols
        invariant forall q :: InRect(q, cols, rows) && (q.y < y || (q.y == y && q.x < x)) ==>
          !Free(cols, snake, q)
      {
        if Free(cols, snake, Pos(x, y)) {
          return Pos(x, y);
        }
        x := x + 1;
      }
      y := y + 1;
    }
    return Pos(0, 0);
  }

  /** A cell on a later row has a key at least `cols` larger, minus the
      column difference. */
  lemma RowGap(cols: int, p: Pos, q: Pos)
    requires cols >= 1 && p.y < q.y
    ensures Index(cols, q) - Index(cols, p) >= cols + q.x - p.x
  {
    var k := q.y - p.y;
    Distrib(p.y, k, cols);
    MulAtLeast(k, cols);
  }

  lemma Distrib(a: int, k: int, c: int)
    ensures (a + k) * c == a * c + k * c
  {
  }

  lemma {:induction false} MulAtLeast(k: int, c: int)
    requires k >= 1 && c >= 0
    ensures k * c >= c
    decreases k
  {
    if k > 1 {
      MulAtLeast(k - 1, c);
      Distrib(k - 1, 1, c);
    }
  }

  /** Two board cells share a key only if they are the same cell. */
  lemma IndexInjective(cols: int, rows: int, p: Pos, q: Pos)
    requires InRect(p, cols, rows) && InRect(q, cols, rows)
    requires Index(cols, p) == Index(cols, q)
    ensures p == q
  {
    if p.y < q.y {
      RowGap(cols, p, q);
      assert false;
    } else if q.y < p.y {
      RowGap(cols, q, p);
      assert false;
    }
  }

  /** For a snake on the board, a key is taken exactly when its cell is on
      the snake, so "free" means "not on the snake". */
  lemma FreeMeansOffSnake(cols: int, rows: int, snake: seq<Pos>, q: Pos)
    requires forall p :: p in snake ==> InRect(p, cols, rows)
    requires InRect(q, cols, rows)
    ensures Free(cols, snake, q) <==> q !in snake
  {
    if !Free(cols, snake, q) {
      var p :| p in snake && Index(cols, p) == Index(cols, q);
      IndexInjective(cols, rows, p, q);
    }
  }

  // ---------------------------------------------------------------------
  // Directions

  /** requestDirection: a request that reverses the current heading is
      dropped; any other overwrites the pending one (last request wins). */
  function RequestDirection(s: State, d: Dir): (r: State)
    ensures d == Opposite(s.direction) ==> r == s
    ensures d != Opposite(s.direction) ==> r == s.(requested := Some(d))
  {
    OppositeSymmetric(d, s.direction);
    if Opposite(d) == s.direction then s else s.(requested := Some(d))
  }

  /** The heading a tick uses: a pending request that does not reverse the
      current heading is taken (and cleared); otherwise it stays pending. */
  function Resolve(s: State): (r: State)
    ensures s.requested.Some? && s.requested.value != Opposite(s.direction) ==>
      r == s.(direction := s.requested.value, requested := None)
    ensures (s.requested.None? || s.requested.value == Opposite(s.direction)) ==> r == s
  {
    match s.requested
    case Some(req) =>
      OppositeSymmetric(req, s.direction);
      if Opposite(req) != s.direction then s.(direction := req, requested := None) else s
    case None => s
  }

  // ---------------------------------------------------------------------
  // The tick

  /** The collision checks of one tick, in the source's order. */
  predicate HitsWall(p: Pos, cols: int, rows: int): (r: bool)
    ensures r <==> !InRect(p, cols, rows)
  {
    p.x < 0 || p.y < 0 || p.x >= cols || p.y >= rows
  }

  predicate HitsEnemy(p: Pos, enemyActive: bool, enemy: Option<seq<Pos>>)
  {
    enemyActive && enemy.Some? && p in enemy.value
  }

  function EndGame(s: State): State
  {
    s.(running := false)
  }

  /** step, eating when the new head reaches `eatAt`. `newFood` is what
      randomFoodPosition returns for the grown snake when it eats. */
  function StepEatingAt(s: State, eatAt: Pos, cols: int, rows: int, enemyActive: bool,
                        enemy: Option<seq<Pos>>, newFood: Pos): (t: Tick)
    requires !s.running || |s.snake| > 0
    // paused: nothing happens
    ensures !s.running ==> t == Tick(s, false)
    // the tick uses (and commits) the resolved heading, even when it ends the game
    ensures s.running ==>
      t.state.direction == Resolve(s).direction && t.state.requested == Resolve(s).requested
    // any collision ends the game without committing a new snake
    ensures s.running ==>
      (t.gameOver <==> var h := Move(s.snake[0], Resolve(s).direction);
        HitsWall(h, cols, rows) || h in s.snake || HitsEnemy(h, enemyActive, enemy))
    ensures t.gameOver ==> t.state == EndGame(Resolve(s))
    // a successful tick moves the head one step onto a free cell
    ensures s.running && !t.gameOver ==>
      && t.state.running
      && (|t.state.snake| == |s.snake| || |t.state.snake| == |s.snake| + 1)
      && t.state.snake[0] == Move(s.snake[0], t.state.direction)
      && Adjacent(t.state.snake[0], s.snake[0])
      && InRect(t.state.snake[0], cols, rows)
      && t.state.snake[0] !in s.snake
      && (forall i :: 1 <= i < |t.state.snake| ==> t.state.snake[i] == s.snake[i - 1])
    // eating: one more cell, one more point, a new food, a faster tick
    ensures s.running && !t.gameOver && t.state.snake[0] == eatAt ==>
      && |t.state.snake| == |s.snake| + 1
      && t.state.score == s.score + 1
      && t.state.food == newFood
      && t.state.speed == (if s.speed - SpeedCut < MinSpeed then MinSpeed else s.speed - SpeedCut)
    // otherwise the tail is popped and nothing else changes
    ensures s.running && !t.gameOver && t.state.snake[0] != eatAt ==>
      && |t.state.snake| == |s.snake|
      && t.state.score == s.score && t.state.food == s.food && t.state.speed == s.speed
    // the interval never drops below 80 and never grows
    ensures s.speed >= MinSpeed ==> MinSpeed <= t.state.speed <= s.speed
  {
    if !s.running then Tick(s, false)
    else
      var s1 := Resolve(s);
      var newHead := Move(s1.snake[0], s1.direction);
      if HitsWall(newHead, cols, rows) then Tick(EndGame(s1), true)
      else if exists p :: p in s1.snake && SamePos(p, newHead) then Tick(EndGame(s1), true)
      else if enemyActive && enemy.Some? && exists p :: p in enemy.value && SamePos(p, newHead) then
        Tick(EndGame(s1), true)
      else
        var ate := SamePos(newHead, eatAt);
        Tick(s1.(snake := Advance(s1.snake, newHead, ate),
                 score := if ate then s1.score + 1 else s1.score,
                 food := if ate then newFood else s1.food,
                 speed := if ate then (if s1.speed - SpeedCut < MinSpeed then MinSpeed else s1.speed - SpeedCut)
                          else s1.speed),
             false)
  }

  /** step with the eat check on the food shown on the board. */
  function Step(s: State, cols: int, rows: int, enemyActive: bool, enemy: Option<seq<Pos>>,
                newFood: Pos): (t: Tick)
    requires !s.running || |s.snake| > 0
    // paused: nothing happens
    ensures !s.running ==> t == Tick(s, false)
    // the tick uses (and commits) the resolved heading, even when it ends the game
    ensures s.running ==>
      t.state.direction == Resolve(s).direction && t.state.requested == Resolve(s).requested
    // any collision ends the game without committing a new snake
    ensures s.running ==>
      (t.gameOver <==> var h := Move(s.snake[0], Resolve(s).direction);
        HitsWall(h, cols, rows) || h in s.snake || HitsEnemy(h, enemyActive, enemy))
    ensures t.gameOver ==> t.state == EndGame(Resolve(s))
    // a successful tick moves the head one step onto a free cell
    ensures s.running && !t.gameOver ==>
      && t.state.running
      && (|t.state.snake| == |s.snake| || |t.state.snake| == |s.snake| + 1)
      && t.state.snake[0] == Move(s.snake[0], t.state.direction)
      && Adjacent(t.state.snake[0], s.snake[0])
      && InRect(t.state.snake[0], cols, rows)
      && t.state.snake[0] !in s.snake
      && (forall i :: 1 <= i < |t.state.snake| ==> t.state.snake[i] == s.snake[i - 1])
    // eating: one more cell, one more point, a new food, a faster tick
    ensures s.running && !t.gameOver && t.state.snake[0] == s.food ==>
      && |t.state.snake| == |s.snake| + 1
      && t.state.score == s.score + 1
      && t.state.food == newFood
      && t.state.speed == (if s.speed - SpeedCut < MinSpeed then MinSpeed else s.speed - SpeedCut)
    // otherwise the tail is popped and nothing else changes
    ensures s.running && !t.gameOver && t.state.snake[0] != s.food ==>
      && |t.state.snake| == |s.snake|
      && t.state.score == s.score && t.state.food == s.food && t.state.speed == s.speed
    // the interval never drops below 80 and never grows
    ensures s.speed >= MinSpeed ==> MinSpeed <= t.state.speed <= s.speed
  {
    StepEatingAt(s, s.food, cols, rows, enemyActive, enemy, newFood)
  }

  /** step as the source has it: the closure is created once on mount
      (an effect with no dependencies), and unlike snake, direction,
      running and speed, `food` has no ref, so the eat check compares with
      the food drawn at mount, `mountFood`, while `food` is what the board
      shows. */
  function StepAsWritten(s: State, mountFood: Pos, cols: int, rows: int, enemyActive: bool,
                         enemy: Option<seq<Pos>>, newFood: Pos): (t: Tick)
    requires !s.running || |s.snake| > 0
    // the moves and collisions are those of the intended step
    ensures t.gameOver == Step(s, cols, rows, enemyActive, enemy, newFood).gameOver
    ensures s.running && !t.gameOver ==> |t.state.snake| >= |s.snake|
    ensures s.running && !t.gameOver ==>
      t.state.snake[0] == Step(s, cols, rows, enemyActive, enemy, newFood).state.snake[0]
    // reaching the mount-time cell always eats, whatever the board shows
    ensures s.running && !t.gameOver && t.state.snake[0] == mountFood ==>
      |t.state.snake| == |s.snake| + 1 && t.state.score == s.score + 1 && t.state.food == newFood
    // any other cell, the food on the board included, does not
    ensures s.running && !t.gameOver && t.state.snake[0] != mountFood ==>
      |t.state.snake| == |s.snake| && t.state.score == s.score && t.state.food == s.food
  {
    StepEatingAt(s, mountFood, cols, rows, enemyActive, enemy, newFood)
  }

  /** After a meal as written, the new food lies off the grown snake, whose
      head is the mount-time cell; so the food on the board is never the
      cell the eat check looks at again. */
  lemma AsWrittenMealMovesFoodAway(s: State, mountFood: Pos, cols: int, rows: int,
                                   enemyActive: bool, enemy: Option<seq<Pos>>, newFood: Pos)
    requires s.running && |s.snake| > 0
    requires newFood !in StepAsWritten(s, mountFood, cols, rows, enemyActive, enemy, newFood).state.snake
    ensures var t := StepAsWritten(s, mountFood, cols, rows, enemyActive, enemy, newFood);
      !t.gameOver && t.state.snake[0] == mountFood ==> t.state.food != mountFood
  {
    var t := StepAsWritten(s, mountFood, cols, rows, enemyActive, enemy, newFood);
    if !t.gameOver && t.state.snake[0] == mountFood {
      assert t.state.snake[0] in t.state.snake;
    }
  }

  /** A running snake whose next cell holds the food on the board, with
      the mount-time food elsewhere: the intended step eats it, the step
      as written moves onto it without growing or scoring, and the food
      stays where it is. */
  lemma AsWrittenSkipsDisplayedFood(s: State, mountFood: Pos, cols: int, rows: int, newFood: Pos)
    requires s.running && s.requested == None && |s.snake| > 0
    requires s.food == Move(s.snake[0], s.direction)
    requires InRect(s.food, cols, rows) && s.food !in s.snake
    requires mountFood != s.food
    ensures Step(s, cols, rows, false, None, newFood).state.score == s.score + 1
    ensures var t := StepAsWritten(s, mountFood, cols, rows, false, None, newFood);
      && !t.gameOver && t.state.snake[0] == s.food
      && t.state.score == s.score && |t.state.snake| == |s.snake| && t.state.food == s.food
  {
    assert Resolve(s) == s;
    assert !HitsWall(s.food, cols, rows) && !HitsEnemy(s.food, false, None);
  }

  /** The pause button flips `running`; since game over is only
      `running == false`, it also resumes a finished game. */
  function TogglePause(s: State): (r: State)
    ensures r.running != s.running
    ensures r.(running := s.running) == s
  {
    s.(running := !s.running)
  }

  /** Restart: the centre snake heading right, no pending request, score
      0, the initial interval, running. `food` is randomFoodPosition's
      result for the centre snake. */
  function Restart(cols: int, rows: int, food: Pos): (r: State)
    ensures r.snake == [Pos(cols / 2, rows / 2)] && r.direction == Right && r.requested == None
    ensures r.score == 0 && r.speed == InitialSpeed && r.running && r.food == food
  {
    State([Pos(cols / 2, rows / 2)], Right, None, food, 0, InitialSpeed, true)
  }

  // ---------------------------------------------------------------------
  // Properties across operations

  /** A pending request never reverses the current heading. */
  predicate PendingOk(s: State)
  {
    s.requested.Some? ==> s.requested.value != Opposite(s.direction)
  }

  /** The invariant of the live game: a well-formed snake on the board,
      an interval of at least 80, a sensible pending request. */
  predicate Valid(s: State, cols: int, rows: int)
  {
    && WellFormed(s.snake)
    && (forall p :: p in s.snake ==> InRect(p, cols, rows))
    && s.speed >= MinSpeed
    && PendingOk(s)
  }

  lemma RestartValid(cols: int, rows: int, food: Pos)
    requires cols >= 1 && rows >= 1
    ensures Valid(Restart(cols, rows, food), cols, rows)
  {
  }

  lemma RequestKeepsValid(s: State, cols: int, rows: int, d: Dir)
    requires Valid(s, cols, rows)
    ensures Valid(RequestDirection(s, d), cols, rows)
  {
    OppositeSymmetric(d, s.direction);
  }

  lemma TogglePauseKeepsValid(s: State, cols: int, rows: int)
    requires Valid(s, cols, rows)
    ensures Valid(TogglePause(s), cols, rows)
  {
  }

  /** Every tick keeps the invariant. */
  lemma StepKeepsValid(s: State, cols: int, rows: int, enemyActive: bool,
                       enemy: Option<seq<Pos>>, newFood: Pos)
    requires Valid(s, cols, rows)
    ensures Valid(Step(s, cols, rows, enemyActive, enemy, newFood).state, cols, rows)
  {
    var t := Step(s, cols, rows, enemyActive, enemy, newFood);
    if s.running && !t.gameOver {
      var h := t.state.snake[0];
      AdvanceKeepsWellFormed(s.snake, h, h == s.food);
      forall p | p in t.state.snake
        ensures InRect(p, cols, rows)
      {
        var i :| 0 <= i < |t.state.snake| && t.state.snake[i] == p;
        if i > 0 {
          assert p == s.snake[i - 1];
        }
      }
    }
  }

  /** In a valid state a pending request is always taken at the next tick,
      so the "stays pending" branch is never used. */
  lemma PendingAlwaysApplied(s: State, cols: int, rows: int, enemyActive: bool,
                             enemy: Option<seq<Pos>>, newFood: Pos)
    requires Valid(s, cols, rows) && s.running && s.requested.Some?
    ensures Step(s, cols, rows, enemyActive, enemy, newFood).state.direction == s.requested.value
    ensures Step(s, cols, rows, enemyActive, enemy, newFood).state.requested == None
  {
  }

  /** Requests dropped for reversing change nothing, however many there are. */
  lemma ReversalsIgnored(s: State, n: nat)
    ensures RepeatReverse(s, n) == s
  {
  }

  function RepeatReverse(s: State, n: nat): State
  {
    if n == 0 then s else RequestDirection(RepeatReverse(s, n - 1), Opposite(s.direction))
  }
}
